=== FILE: README.md ===
# Porto Geoloc — a Dafny model of the delivery-confirmation front end

Porto Geoloc has two browser pages around one backend table, `entregas`
(deliveries):

- The seller **dashboard** (`src/main.js`) lists delivery rows. It shows
  counters of pending and located rows and creates a delivery with a random
  4-digit access code. It opens a panel per row (details, map, share) and
  shares a confirmation link or QR code.
- The customer **confirmation page** (`src/cliente.js`) asks for the access
  code. It checks the code against the row named in the link, or, with the
  universal link, searches the pending rows. It then reads the GPS position,
  uploads an optional photo and marks the row located.

This project models the decision logic of both pages as pure Dafny
functions over immutable values:

- The backend becomes a `seq<DeliveryRecord>`. Each query the pages build
  becomes a filter or a maximum over it. The insert appends and the update
  rewrites the matching rows.
- Every answer from outside is a parameter: backend errors, the GPS
  position or GPS error, the upload result, the update result,
  `Math.random()` and `Date.now()`.
- Each event handler is a transition function. It returns the new page
  state, the alert it shows, and the requests it issued, in order.

| file | module | models |
|---|---|---|
| `values.dfy` | `Values` | `Option`, JavaScript truthiness of nullable strings and numbers, `a || b` |
| `text.dfy` | `Text` | `split`, `join`, `slice`, `padStart`, ASCII `toUpperCase`, decimal `toString`, with their round trips |
| `deliveries.dfy` | `Deliveries` | the row, the table invariants, insert, status counts, the `.single()` lookup by id, the newest-pending-by-code search, update by id |
| `links.dfy` | `Links` | the per-delivery and universal links, `location.search`, `URLSearchParams.get` |
| `dashboard.dfy` | `Dashboard` | initials, labels, counters, rendering, access code, create form, order options, details, share links |
| `confirmation.dfy` | `Confirmation` | the `Auth → Location → Success` page state: code boxes, photo, verification, sending |
| `scenario.dfy` | `Scenario` | one full round from creation to location |

The model follows the code, also where it departs from the intended behaviour:

- **Missing row in a targeted check.** The targeted lookup ends in
  `.single()`. The hosted client reports zero matching rows as an error, so
  an unknown id shows the connection-error alert, not "Pedido não
  encontrado" (`Confirmation.TargetedMissingRowIsServerError`).
- **Code format.** Codes are not required to be "exactly 4 digits". Only
  `length < 4` is rejected, so four letters, or more than four characters,
  still reach the backend (`Confirmation.LengthIsTheOnlyCheck`).
- **Photo.** The photo is optional to `handleSendLocation`, but the send
  button starts disabled and is only enabled by choosing a photo. So a
  click that starts a send finds a photo chosen
  (`Confirmation.ClicksKeepValid`). The handler reads the photo later, in
  the GPS callback, and the remove button stays live meanwhile. A photo
  removed while the position is pending is therefore sent without a
  photo, and a failed attempt re-enables the button even with no photo.
  The model reads the photo at click time, so it does not cover that
  window (see "Left out").
- **The "??" placeholder.** `getInitials` gives "??" for a missing name,
  but also for the name "? ?" (`Dashboard.PlaceholderIsNotExclusive`).
- **Other status values.** Any status other than `pendente` is labelled
  located, but only `localizado` is counted
  (`Dashboard.OtherStatusShownLocatedButUncounted`).
- **Update matching no row.** An update whose id matches no row is not an
  error, so the page shows Success and the table is unchanged
  (`Confirmation.SuccessWithoutRow`).
- **No Submitting state.** There is no separate "Submitting" step. Each
  handler runs to completion with its outcomes given.

## Model

| member | source | states |
|---|---|---|
| Text.Split | src/main.js:31 | `split` with a one-character separator yields at least one piece, and no piece contains the separator |
| Text.JoinSplit | src/cliente.js:176 | joining the pieces of `split` with the separator gives back the original string |
| Text.SplitCountsSeparator | src/cliente.js:176 | a string splits into more than one piece exactly when it contains the separator |
| Text.TakeLast | src/main.js:63 | for n > 0, `slice(-n)` is the suffix of length min(n, length) |
| Text.Take | src/main.js:31 | `slice(0, n)` is the prefix of length min(n, length) |
| Text.ToUpper | src/main.js:31 | `toUpperCase` keeps the length and upper-cases each character in place (ASCII letters only) |
| Text.PadStart | src/main.js:135-136 | `padStart` reaches the width with the fill character on the left and never truncates: the original is the suffix |
| Text.NatToDecimal | src/main.js:173 | `toString` of a non-negative integer is all digits with no leading zero |
| Text.DecimalRoundTrip | src/main.js:135-136 | reading the decimal text back gives the number |
| Text.DecimalLength | src/main.js:173 | the decimal text has at most k digits exactly when n < 10^k |
| Text.LeadingZeros | src/main.js:135-136 | zero padding on the left does not change the value a numeral denotes |
| Text.ConcatOfSingles | src/cliente.js:89 | joining one-character boxes gives a string as long as the number of boxes, with each box's character in its place |
| Text.ConcatOfEmpties | src/cliente.js:89 | joining empty boxes gives the empty string |
| Text.SplitAtLastUnique | src/cliente.js:176 | a split around a separator whose right side has no separator is the split at its last occurrence |
| Deliveries.Insert | src/main.js:175-189 | the insert appends one row holding the sent name, phone, address fields, reference, code and status, the backend's id and time, and no latitude, longitude, accuracy, location time, photo or confirmation; the earlier rows are unchanged |
| Deliveries.InsertKeepsCoordinates | src/main.js:177-188 | inserting a row that is not located keeps "located implies coordinates" |
| Deliveries.InsertKeepsOnlyLocated | src/main.js:177-188 | the inserted row has no position, accuracy, location time or photo, so "only located rows carry them" is kept |
| Deliveries.InsertKeepsUniqueIds | src/main.js:175-189 | inserting under a fresh id keeps ids unique |
| Deliveries.CountStatus | src/main.js:117-118 | a status count never exceeds the number of rows |
| Deliveries.CountIsMultiplicity | src/main.js:117-118 | a status count is the multiplicity of that status among the rows, so it does not depend on their order |
| Deliveries.CountsOfTwoStatuses | src/main.js:117-119 | the pending count plus the located count is at most the number of rows |
| Deliveries.CountsCoverTwoStatusTable | src/main.js:117-119 | when every row is pending or located, the two counts add up to the number of rows |
| Deliveries.RowsWithId | src/cliente.js:104 | the rows filtered by id are exactly the table's rows with that id |
| Deliveries.SelectById | src/cliente.js:100-104 | `.eq('id', id).single()` returns a row exactly when one row has that id, and it is a row of the table with that id; zero or several rows give an error |
| Deliveries.SelectByIdFinds | src/cliente.js:104 | with unique ids, `.single()` finds a row exactly when one with that id exists, and it is that row |
| Deliveries.UniqueRowsWithId | src/cliente.js:104 | with unique ids, at most one row matches an id, and it is the row holding it |
| Deliveries.NewestPendingWithCode | src/cliente.js:105-107 | the code search returns nothing exactly when no pending row has the code; otherwise a pending row with the code whose `created_at` is the greatest among them |
| Deliveries.UpdateById | src/cliente.js:194-205 | every row with the id takes the seven written values (coordinates, accuracy, status, confirmation, location time, photo address) and keeps every other column; every row with another id is unchanged |
| Deliveries.UpdateKeepsCoordinates | src/cliente.js:194-205 | an update that writes coordinates keeps "located implies coordinates" |
| Deliveries.UpdateKeepsOnlyLocated | src/cliente.js:196-204 | an update that writes status `localizado` with the position keeps "only located rows carry a position, accuracy, location time or photo" |
| Deliveries.UpdateMissingIdIsNoOp | src/cliente.js:205 | an update whose id matches no row leaves the table unchanged |
| Deliveries.UpdateKeepsUniqueIds | src/cliente.js:194-205 | the update does not change ids |
| Links.UniversalUrl | src/main.js:315 | the universal link is the origin followed by the confirmation path |
| Links.DeliveryUrl | src/main.js:282 | the per-delivery link is the universal link followed by `?id=` and the id, with a null id printed as "null" |
| Links.Search | src/cliente.js:21 | `location.search` is empty or a '?' followed by a non-empty query, and never holds a fragment |
| Links.FirstParam | src/cliente.js:22 | the parameter lookup finds nothing exactly when no pair has the name; otherwise it returns the value of the first pair with that name |
| Links.ValueOf | src/cliente.js:22 | a pair with '=' is its name, the first '=' and the value, so the value is the text after the first '='; a pair without '=' has the empty value |
| Links.Pairs | src/cliente.js:21-22 | the pieces of the query after its leading '?' hold no '&', and joined back with '&' give the query; an empty search is one empty piece |
| Links.QueryParam | src/cliente.js:21-22 | `get(name)` finds nothing exactly when no piece of the query has the name, and otherwise returns the value of the first piece that has it; the value never holds '&', and an empty search has no parameters |
| Links.ValuesStopAtAmpersand | src/cliente.js:22 | a value found among the pieces of `split('&')` holds no '&' |
| Links.IdParam | src/cliente.js:21-22 | the id read from the page address is the value of the first `id` piece of its `location.search`, and absent exactly when no piece is named `id`; it never holds '&', and an address with no '?' carries no id |
| Links.NoQueryNoSearch | src/cliente.js:21 | an address with no '?' has an empty `location.search` |
| Links.SharedIdRoundTrip | src/main.js:282 | the confirmation page reads back from a shared link exactly the shared id |
| Links.OnePairNamedId | src/cliente.js:22 | the single pair `id=<v>` gives the value v for the name "id" |
| Links.UniversalUrlHasNoId | src/main.js:315 | the universal link carries no id |
| Dashboard.FirstCharsOfWords | src/main.js:31 | splitting on ' ' and taking each piece's first character (empty pieces giving nothing) yields the first character of every word, in order |
| Dashboard.Initials | src/main.js:29-32 | "??" for a missing or empty name; otherwise at most two characters, the upper-cased first characters of the first words |
| Dashboard.BlankNameHasNoInitials | src/main.js:31 | a name made only of spaces shows no initials |
| Dashboard.InitialsOfNamedCustomer | src/main.js:29-32 | a present name without '?' never shows the "??" placeholder |
| Dashboard.PlaceholderIsNotExclusive | src/main.js:30-31 | the name "? ?" also shows "??", so the placeholder does not by itself mean the name is missing |
| Dashboard.ShortId | src/main.js:63 | the order label uses the last min(5, length) characters of the id, and the whole id when it is short |
| Dashboard.StatusLabel | src/main.js:74-104 | each view shows its pending word ("Aguardando GPS" in the table, "Pendente" on cards) exactly for status `pendente`, and its located word ("Localizado", "Confirmado") for every other status |
| Dashboard.OtherStatusShownLocatedButUncounted | src/main.js:74-119 | a status other than `pendente` or `localizado` is labelled "Localizado" and "Confirmado" but is in neither counter |
| Dashboard.CountText | src/main.js:135-136 | a counter shows at least two digits, "0"-padded below 10, exactly the number's digits from 10 up, and the digits denote the count |
| Dashboard.CountTextExamples | src/main.js:135-136 | 0 shows "00", 7 shows "07" and 123 shows "123" |
| Dashboard.RowOf | src/main.js:54-79 | a table line shows the row's id and access code, the initials of the customer's name, the name or "Sem Nome" when it is missing or empty, "Pedido #" with the id's last five characters, and "Aguardando GPS" exactly for a pending row |
| Dashboard.CardOf | src/main.js:89-106 | a card shows the row's id and access code, the name or "Sem Nome" when it is missing or empty, and "Pendente" exactly for a pending row |
| Dashboard.Render | src/main.js:34-120 | an empty list gives the empty state and "00"/"00"; otherwise the table shows `RowOf` of each row and the cards `CardOf` of each row, in order: that row's id and code, the table with its initials, name or "Sem Nome" and order label, the cards with its name or "Sem Nome", the pending word exactly on pending rows and the located word ("Localizado", "Confirmado") exactly on the others; the counters denote the pending and located counts |
| Dashboard.CountersBoundedByRows | src/main.js:117-119 | the two counters never add up to more than the number of rows |
| Dashboard.CountersMatchLabels | src/main.js:74-119 | the pending counter equals the number of rows labelled "Aguardando GPS"; the rows labelled "Localizado" are all the others, at least as many as the located counter |
| Dashboard.AccessCodeNumber | src/main.js:173 | for any `Math.random()` draw in [0, 1) the code lies in [1000, 9999] |
| Dashboard.AccessCode | src/main.js:173 | the code text is exactly four digits, the first not zero, and denotes the drawn number |
| Dashboard.EveryCodeCanBeDrawn | src/main.js:173 | every number in [1000, 9999] is produced by some draw |
| Dashboard.CreationFields | src/main.js:171-187 | the insert carries the typed name and phone, each optional field as typed or "" when left empty, the code drawn from the given `Math.random()` value, and status `pendente` |
| Dashboard.HandleCreate | src/main.js:336-375 | an empty name or phone alerts and sends nothing; otherwise it sends the name, the phone, the optional fields or "" for each missing one, the code drawn from the given `Math.random()` value and status `pendente`; the form is cleared exactly when the insert succeeds, and otherwise kept with the table unchanged; the button is enabled again on both paths |
| Dashboard.CreateKeepsCoordinates | src/main.js:177-188 | creating keeps "located implies coordinates", and the created row is pending with a four-digit code |
| Dashboard.CreateKeepsOnlyLocated | src/main.js:177-188 | creating a delivery keeps positions and photos on located rows only |
| Dashboard.OpenOrderOptions | src/main.js:204-230 | the panel selects the row's id and code for sharing, shows its name or "Sem Nome" and "Pedido #" with the id's last five characters; the maps action is enabled exactly when both coordinates are present and non-zero |
| Dashboard.MapsFollowCoordinates | src/main.js:222-230 | a located row off latitude 0 and longitude 0 can be mapped; a row at latitude 0 cannot; a newly created row cannot |
| Dashboard.OpenDetails | src/main.js:241-263 | each of name, street, neighbourhood, house number and reference shows the stored value when present, else its placeholder ("Não informado", "S/N", "Nenhum ponto de referência"); the photo shows exactly when its address is present |
| Dashboard.DetailsNeverBlank | src/main.js:245-249 | no details field is ever blank |
| Dashboard.DetailsOfCreatedRow | src/main.js:180-184 | after a successful create, the new row's details show each field as typed, and the placeholder for each field left empty (the "" the form sends reads as missing), with no photo |
| Dashboard.OpenShare | src/main.js:276-279 | opening the share dialog selects the given id and code, so the links no longer print "null" |
| Dashboard.ShareButtonKeepsSelection | src/main.js:204-236 | the options panel's share button selects the same row the panel selected |
| Dashboard.CopyLinkUrl | src/main.js:282 | the copied link is the origin, then `/confirmar-localizacao?id=`, then the selected id ("null" when none) |
| Dashboard.QrCodeUrl | src/main.js:297 | the per-delivery QR code encodes the same link the copy button writes |
| Dashboard.UniversalQrUrl | src/main.js:315 | the universal QR code encodes the origin followed by `/confirmar-localizacao` and nothing else |
| Dashboard.SharedLinksReachTheRow | src/main.js:281-297 | the copied link and the QR link of a row are the same, and they bring the customer to that row; the universal QR code carries no id |
| Dashboard.UnselectedShareLinksNull | src/main.js:202 | with no row selected yet, the copied link names the id "null" |
| Confirmation.Start | src/cliente.js:21-32 | the page starts at the code step with the id from the link, empty code boxes with focus on the first, no photo, sending disabled and verifying enabled |
| Confirmation.OnCodeInput | src/cliente.js:72-76 | typing one character into a box other than the last moves focus to the next box; otherwise focus stays; focus stays within the boxes |
| Confirmation.OnCodeKeyDown | src/cliente.js:78-82 | Backspace in an empty box other than the first moves focus back one box; anything else changes nothing |
| Confirmation.TypingWalksForward | src/cliente.js:71-76 | typing a string one character per box from the first box fills exactly the first boxes with its characters in order, leaves the others as they were, and leaves focus on the box after the last one typed, or on the last box once all are filled |
| Confirmation.TypeChars | src/cliente.js:71-76 | typing changes only the boxes and the focus, keeps the number of boxes and keeps focus inside them |
| Confirmation.EnteredCode | src/cliente.js:89 | when every box holds one character, the entered code has one character per box, in box order; when every box is empty it is "" |
| Confirmation.OnPhotoChosen | src/cliente.js:37-54 | on the location step, picking a file makes it the photo and enables sending; picking nothing, or any event on another step, where the input is hidden, changes nothing |
| Confirmation.OnPhotoRemoved | src/cliente.js:56-68 | on the location step, removing the photo clears it and disables sending; on another step it changes nothing |
| Confirmation.LookupForCode | src/cliente.js:100-110 | a backend error always reports failure; with an id, the lookup finds a row exactly when one row has that id, and it is that row ("no row" never occurs, since `.single()` turns it into an error); without an id it finds nothing exactly when no pending row has the code, and otherwise a pending row with the code and the greatest `created_at` |
| Confirmation.VerifyFailed | src/cliente.js:135-142 | a failure after the query shows its alert, re-enables the button, empties every box and focuses the first, and changes nothing else |
| Confirmation.HandleVerifyCode | src/cliente.js:88-143 | a code shorter than four characters alerts without a query; success moves to the location step with the matched row's id; every failure after the query keeps the step, empties the boxes, focuses the first and re-enables the button |
| Confirmation.OnVerifyClick | src/cliente.js:235-237 | a click while the verify button is disabled changes nothing |
| Confirmation.TargetedVerification | src/cliente.js:102-134 | with an id, verification succeeds exactly when a row with that id holds the entered code, and then keeps that id; a row with that id and another code gives "Código incorreto" |
| Confirmation.TargetedIgnoresStatus | src/cliente.js:100-104 | the targeted check accepts the code of a row that is already located |
| Confirmation.TargetedMissingRowIsServerError | src/cliente.js:104-115 | with an id that no row has, the alert is the connection error |
| Confirmation.UniversalVerification | src/cliente.js:105-121 | without an id, verification succeeds exactly when a pending row has the code, and the session takes the id of a newest such row; failure is "code not found" |
| Confirmation.LengthIsTheOnlyCheck | src/cliente.js:89-94 | four non-digit characters pass the length check and are sent to the backend |
| Confirmation.Extension | src/cliente.js:176 | the extension has no '.', is the whole name when there is no '.', and otherwise is the text after the last '.' |
| Confirmation.ExtensionIsAfterLastDot | src/cliente.js:176 | the last piece of `split('.')` is the text after the last '.', or the whole name |
| Confirmation.PhotoPath | src/cliente.js:176-178 | the photo lies in the `fotos/` folder and its file name starts with the delivery id and a '-' |
| Confirmation.PhotoPathRoundTrip | src/cliente.js:176-178 | the photo path `fotos/<id>-<millis>.<ext>` determines the id, the time and the extension, whatever the id contains |
| Confirmation.ParsesBack | src/cliente.js:176-178 | for any extension without '.', `fotos/<id>-<millis>.<ext>` reads back as that id, time and extension |
| Confirmation.HandleSendLocation | src/cliente.js:145-233 | without an id or without geolocation it alerts and issues nothing; once the GPS gives a position with a photo chosen, the upload to `fotos/<id>-<millis>.<ext>` follows the GPS request; success issues exactly the GPS request, the upload when there is a photo, and the update, and writes the located, confirmed payload with the photo address or null; each request goes at most once and in that order; no update means an unchanged table; any failure keeps the step and re-enables sending; a GPS error gives the permission message exactly when its code is 1 |
| Confirmation.LocationFields | src/cliente.js:196-204 | the payload holds the GPS latitude, longitude and accuracy and the given time, marks the row `localizado` and confirmed by the customer, with the photo address passed (null without a photo) |
| Confirmation.Store | src/cliente.js:194-220 | the update is the last request; if it fails the table is unchanged, the alert is shown and sending is enabled again; otherwise the page shows Success with sending disabled, the rows with the id take the written status and coordinates, and every other row is unchanged |
| Confirmation.OnSendClick | src/cliente.js:239-241 | a click while the send button is disabled, or while the location step is hidden, changes nothing; otherwise it runs the send handler |
| Confirmation.UploadFailureAborts | src/cliente.js:175-184 | a failed upload issues no update, leaves the table unchanged, keeps the location step and re-enables sending |
| Confirmation.SendSucceedsExactly | src/cliente.js:167-212 | past the guards, Success is reached exactly when the GPS, the upload (if there is a photo) and the update all succeed |
| Confirmation.SendWithoutPhoto | src/cliente.js:172-175 | without a photo nothing is uploaded and the row is located with no photo address |
| Confirmation.SendLocatesTheRow | src/cliente.js:194-205 | after a successful send the session's row is located, confirmed, at the GPS position with its accuracy, stamped, and holds the uploaded photo's address or none |
| Confirmation.SuccessWithoutRow | src/cliente.js:205-212 | when no row has the session's id, the update still succeeds and the page shows Success with the table unchanged |
| Confirmation.SendKeepsCoordinates | src/cliente.js:194-205 | sending never leaves a located row without coordinates |
| Confirmation.SendKeepsOnlyLocated | src/cliente.js:194-205 | sending keeps positions and photos on located rows only |
| Confirmation.ClicksKeepValid | src/cliente.js:29-67 | every click keeps focus inside the boxes and keeps sending enabled only with a photo on the location step, so a click that sends anything has a photo chosen |
| Confirmation.SendOnlyFromLocation | src/cliente.js:129-131 | a click issues a request, changes the table or reaches Success only from the location step, which is shown only after the code is verified |
| Confirmation.NoSendBeforeVerification | src/cliente.js:28-54 | on a freshly loaded page, picking a photo and clicking send issues nothing, leaves the table as it was and stays on the code step |
| Confirmation.ClickSucceedsExactly | src/cliente.js:167-212 | a click on the enabled send button of a page with a session id reaches Success exactly when the GPS, the upload and the update all succeed |
| Scenario.TypeCode | src/cliente.js:72-76 | typing four characters one per box on a fresh page fills the boxes in order, leaves focus on the last, and changes nothing else |
| Scenario.ConcatOfFour | src/cliente.js:89 | joining the four boxes gives back the typed code |
| Scenario.CreateAna | src/main.js:171-189 | creating "Ana" under a fresh id appends one pending row with that id and a four-digit code and keeps ids unique |
| Scenario.VerifyOwnCode | src/cliente.js:88-131 | on the page opened from a row's own link, typing that row's code reaches the location step with that row's id, and the send button is still disabled |
| Scenario.PhotoThenSend | src/cliente.js:37-212 | on the location step a send click before a photo is picked issues nothing; after "casa.jpg" is picked a successful send locates the session's row at the GPS position with the photo's public address |
| Scenario.CreateVerifyLocate | src/cliente.js:88-212 | creating "Ana", opening the link shared for the row, typing its code, picking a photo and clicking send leaves the row located, confirmed, at the GPS position, holding the photo's public address; a click before the photo is picked issues nothing |

## Left out

- Loading the list (`carregarEntregas`, `refreshData`, `refreshEntregas`) is left out. It is a backend read ordered by `created_at`, returning `[]` on error. The model takes the row list as given and does not model the reload after a successful insert.
- All DOM work is left out as presentation only: `innerHTML` templates, CSS classes, modal visibility, the loading overlay, `zoomPhoto`, the click delegation in `handleCardClick`, and the `getStatusClass` function that nothing calls.
- The Google Maps address built from float coordinates is left out. Only whether the maps action is enabled is modelled.
- The clipboard write, the 2-second toast, the QR code library and its colours, and `window.open` are left out as browser and foreign calls.
- A photo changed or removed while a send is in progress is not modelled. The page reads the photo in the GPS callback, not at the click, and re-enables the button after a failure whether or not a photo is still chosen. The model reads the photo when the send button is clicked and runs the handler to completion.
- Photo preview is treated as instant. The `FileReader` load is asynchronous; the model enables sending in the same step as choosing the photo. A photo removed before its preview loads is therefore not modelled.
- The geolocation options (high accuracy, 20 s timeout, no cached fix) are left out as platform behaviour. So are races between customers and double submission.
- Coordinates are `real`. The model does not cover floating-point rounding, NaN, or the float arithmetic of `Math.random() * 9000`.
- `Date.now()` and `toISOString()` become natural-number timestamps.
- Console logging and the exact alert texts are left out. The model records only which alert is shown.
- The photo input, the remove-photo button and the send button sit in the location section, which is hidden until the code is verified. The page's markup is not part of this model. So the handlers ignoring events on any other step is a modelling assumption, taken from the section being shown at `src/cliente.js:130-131` and hidden at `src/cliente.js:211`.
- `Confirmation.Start`: the first code box having focus at load is a modelling assumption; the page's markup is not part of this model.
- `Links.FirstParam`: values are taken raw. `URLSearchParams` percent-decodes them and turns '+' into a space, so on the real page an id containing '+' or '%' reads back changed. `Links.SharedIdRoundTrip` therefore holds in the model for every id without '&' or '#', but on the page only for ids that also have no '+' or '%'.
- `Confirmation.OnCodeInput`: a box's length is counted in Unicode scalar values, while JavaScript's `.length` counts UTF-16 code units. A box holding one character outside the Basic Multilingual Plane, such as an emoji, has length 2 on the page and does not move focus, but has length 1 here.
- `Confirmation.HandleVerifyCode`: the entered code's length is counted in Unicode scalar values, not in the UTF-16 code units JavaScript counts. So a code of two emoji has length 4 on the page and is sent to the backend, but has length 2 here and is rejected as incomplete.
- `Dashboard.Initials`: upper-casing is modelled for ASCII letters only, and characters are Unicode scalar values rather than UTF-16 code units.
- Ids are modelled by their string form. A numeric id 0, which JavaScript treats as false, is not modelled.
- When two pending rows with the same code were created at the same instant, the backend's order between them is unspecified. The model returns the one listed first.

=== FILE: confirmation.dfy ===
/** The customer confirmation page: enter the access code, then send the
    GPS position with an optional photo.

    The page is a state machine over `Auth -> Location -> Success` with
    some side state (the delivery id, the chosen photo, the two buttons,
    the code boxes and which of them has focus). Each event handler is a
    pure transition; what the backend, the GPS and the storage bucket
    answer is passed in as an outcome, and the requests a handler issues
    are returned in order.
 */
module Confirmation {

  import opened Values
  import opened Text
  import opened Deliveries
  import Links

  /** The shortest code the page accepts before querying. */
  const CODE_LENGTH: nat := 4

  datatype Step = Auth | Location | Success

  /** A chosen image file; only its name matters to the flow. */
  datatype Photo = Photo(name: string)

  /** Page state: `step`, `currentDeliveryId`, `selectedPhoto`, whether the
      send and verify buttons are enabled, the code boxes' contents and the
      index of the focused box. */
  datatype Client = Client(
    step: Step,
    deliveryId: Option<string>,
    photo: Option<Photo>,
    sendEnabled: bool,
    verifyEnabled: bool,
    codeInputs: seq<string>,
    focus: nat)

  /** What every reachable page state satisfies: focus stays on a code box,
      and the send button is enabled only on the location step while a
      photo is chosen. */
  ghost predicate Valid(c: Client) {
    |c.codeInputs| >= 1 && c.focus < |c.codeInputs| &&
    (c.sendEnabled ==> c.photo.Some? && c.step == Location)
  }

  function Blank(n: nat): (boxes: seq<string>)
    ensures |boxes| == n && forall k :: 0 <= k < n ==> boxes[k] == ""
  {
    seq(n, _ => "")
  }

  /** The page as loaded from `url` with `boxes` code boxes: the id comes
      from the `id` query parameter, sending starts disabled. */
  function Start(url: string, boxes: nat): (c: Client)
    requires boxes >= 1
    ensures Valid(c) && c.step == Auth && c.photo.None? && !c.sendEnabled && c.verifyEnabled
    ensures c.deliveryId == Links.IdParam(url)
    ensures |c.codeInputs| == boxes && c.focus == 0 && forall k :: 0 <= k < boxes ==> c.codeInputs[k] == ""
  {
    Client(Auth, Links.IdParam(url), None, false, true, Blank(boxes), 0)
  }

  // ---------------------------------------------------------------------
  // code boxes
  // ---------------------------------------------------------------------

  /** `input` on box `idx`, which now holds `value`: one character typed
      moves focus to the next box, unless this is the last one. */
  function OnCodeInput(c: Client, idx: nat, value: string): (c': Client)
    requires idx < |c.codeInputs|
    ensures c'.codeInputs == c.codeInputs[idx := value]
    ensures |value| == 1 && idx < |c.codeInputs| - 1 ==> c'.focus == idx + 1
    ensures !(|value| == 1 && idx < |c.codeInputs| - 1) ==> c'.focus == c.focus
    ensures c' == c.(codeInputs := c'.codeInputs, focus := c'.focus)
    ensures Valid(c) ==> Valid(c')
  {
    var moved := if |value| == 1 && idx < |c.codeInputs| - 1 then idx + 1 else c.focus;
    c.(codeInputs := c.codeInputs[idx := value], focus := moved)
  }

  /** `keydown` on box `idx`: Backspace in an empty box moves focus back,
      unless this is the first one. The key's own edit arrives later as an
      `input` event. */
  function OnCodeKeyDown(c: Client, idx: nat, key: string): (c': Client)
    requires idx < |c.codeInputs|
    ensures key == "Backspace" && c.codeInputs[idx] == "" && idx > 0 ==> c'.focus == idx - 1
    ensures !(key == "Backspace" && c.codeInputs[idx] == "" && idx > 0) ==> c' == c
    ensures c' == c.(focus := c'.focus)
    ensures Valid(c) ==> Valid(c')
  {
    if key == "Backspace" && c.codeInputs[idx] == "" && idx > 0 then c.(focus := idx - 1) else c
  }

  /** Typing the characters of `s` one per box, from the first box on,
      fills exactly the first |s| boxes with them in order, leaves the rest
      as they were, and leaves focus on the box after the last one typed,
      or on the last box once all are filled. */
  lemma {:induction false} TypingWalksForward(c: Client, s: string)
    requires Valid(c) && c.focus == 0
    requires |s| <= |c.codeInputs|
    ensures TypeChars(c, s).focus == if |s| < |c.codeInputs| then |s| else |c.codeInputs| - 1
    ensures forall j :: 0 <= j < |s| ==> TypeChars(c, s).codeInputs[j] == [s[j]]
    ensures forall j :: |s| <= j < |c.codeInputs| ==> TypeChars(c, s).codeInputs[j] == c.codeInputs[j]
    decreases |s|
  {
    if |s| > 0 {
      var prefix := s[..|s| - 1];
      TypingWalksForward(c, prefix);
      assert forall j :: 0 <= j < |prefix| ==> prefix[j] == s[j];
    }
  }

  /** The page after the input events of typing `s`, one character per box
      from the first box on; only the boxes and the focus change. */
  function TypeChars(c: Client, s: string): (c': Client)
    requires Valid(c)
    requires |s| <= |c.codeInputs|
    ensures Valid(c') && |c'.codeInputs| == |c.codeInputs|
    ensures c' == c.(codeInputs := c'.codeInputs, focus := c'.focus)
    decreases |s|
  {
    if |s| == 0 then c
    else OnCodeInput(TypeChars(c, s[..|s| - 1]), |s| - 1, [s[|s| - 1]])
  }

  // ---------------------------------------------------------------------
  // photo
  // ---------------------------------------------------------------------

  /** `change` on the file input with the files picked: the first one, if
      any, becomes the photo and sending is enabled once its preview loads.
      The file input sits in the location step, so on any other step
      nothing can be picked. */
  function OnPhotoChosen(c: Client, files: seq<Photo>): (c': Client)
    ensures |files| == 0 || c.step != Location ==> c' == c
    ensures |files| > 0 && c.step == Location ==> c'.photo == Some(files[0]) && c'.sendEnabled
    ensures c' == c.(photo := c'.photo, sendEnabled := c'.sendEnabled)
    ensures Valid(c) ==> Valid(c')
  {
    if |files| == 0 || c.step != Location then c else c.(photo := Some(files[0]), sendEnabled := true)
  }

  /** The remove-photo button, also in the location step: no photo, and
      sending is disabled again. */
  function OnPhotoRemoved(c: Client): (c': Client)
    ensures c.step == Location ==> c'.photo.None? && !c'.sendEnabled
    ensures c.step != Location ==> c' == c
    ensures c' == c.(photo := c'.photo, sendEnabled := c'.sendEnabled)
    ensures Valid(c) ==> Valid(c')
  {
    if c.step == Location then c.(photo := None, sendEnabled := false) else c
  }

  // ---------------------------------------------------------------------
  // code verification
  // ---------------------------------------------------------------------

  datatype VerifyNotice =
    | IncompleteCode   // "insira o código completo"
    | ServerError      // "Erro ao conectar com o servidor."
    | OrderNotFound    // "Pedido não encontrado ou código inválido."
    | CodeNotFound     // "Código não encontrado ou já localizado."
    | WrongCode        // "Código incorreto."

  /** After `handleVerifyCode`: the new state, the alert shown (none on
      success), and whether a query was sent. */
  datatype VerifyResult = VerifyResult(client: Client, notice: Option<VerifyNotice>, queried: bool)

  /** The code boxes joined. */
  function EnteredCode(c: Client): (code: string)
    ensures (forall k :: 0 <= k < |c.codeInputs| ==> |c.codeInputs[k]| == 1) ==>
              |code| == |c.codeInputs| &&
              forall k :: 0 <= k < |c.codeInputs| ==> code[k] == c.codeInputs[k][0]
    ensures (forall k :: 0 <= k < |c.codeInputs| ==> c.codeInputs[k] == "") ==> code == ""
  {
    ConcatOfSingles(c.codeInputs);
    ConcatOfEmpties(c.codeInputs);
    Concat(c.codeInputs)
  }

  /** What the verification query returns. */
  datatype Lookup = Found(row: DeliveryRecord) | NoRow | QueryFailed

  /** With a delivery id, the row with that id (`.single()`, so no row is
      an error); without one, the newest pending row with the code
      (`.maybeSingle()`, so no row is simply nothing). */
  function LookupForCode(t: Table, deliveryId: Option<string>, code: string, serverError: bool): (l: Lookup)
    ensures Present(deliveryId) ==> !l.NoRow?
    ensures !Present(deliveryId) && l.Found? ==> PendingWithCode(l.row, code)
    ensures l.Found? ==> l.row in t
    ensures serverError ==> l.QueryFailed?
    ensures Present(deliveryId) && l.Found? ==> l.row.id == deliveryId.value
    ensures !serverError && Present(deliveryId) ==> (l.Found? <==> |RowsWithId(t, deliveryId.value)| == 1)
    ensures !Present(deliveryId) && l.Found? ==>
              forall i :: 0 <= i < |t| && PendingWithCode(t[i], code) ==> t[i].createdAt <= l.row.createdAt
    ensures !serverError && !Present(deliveryId) ==>
              (l.NoRow? <==> forall i :: 0 <= i < |t| ==> !PendingWithCode(t[i], code))
  {
    if serverError then QueryFailed
    else if Present(deliveryId) then
      match SelectById(t, deliveryId.value)
      case One(row) => Found(row)
      case NotExactlyOne => QueryFailed
    else
      match NewestPendingWithCode(t, code)
      case Some(row) => Found(row)
      case None => NoRow
  }

  /** The catch block: alert, re-enable the button, empty the boxes, focus the first. */
  function VerifyFailed(c: Client, n: VerifyNotice): (r: VerifyResult)
    ensures r.notice == Some(n) && r.queried
    ensures r.client == c.(verifyEnabled := true, codeInputs := r.client.codeInputs, focus := 0)
    ensures |r.client.codeInputs| == |c.codeInputs|
    ensures forall k :: 0 <= k < |c.codeInputs| ==> r.client.codeInputs[k] == ""
    ensures Valid(c) ==> Valid(r.client)
  {
    VerifyResult(c.(verifyEnabled := true, codeInputs := Blank(|c.codeInputs|), focus := 0),
                 Some(n), true)
  }

  /** `handleVerifyCode`. Only the code's length is checked before the query. */
  function HandleVerifyCode(c: Client, t: Table, serverError: bool): (r: VerifyResult)
    ensures |EnteredCode(c)| < CODE_LENGTH ==>
              r.client == c && r.notice == Some(IncompleteCode) && !r.queried
    ensures |EnteredCode(c)| >= CODE_LENGTH ==> r.queried
    ensures r.notice.None? ==>
              r.client.step == Location && r.client.deliveryId.Some? &&
              (exists k :: 0 <= k < |t| && t[k].id == r.client.deliveryId.value &&
                           t[k].accessCode == EnteredCode(c)) &&
              r.client == c.(step := Location, deliveryId := r.client.deliveryId, verifyEnabled := false)
    ensures r.queried && r.notice.Some? ==>
              r.client == c.(verifyEnabled := true, codeInputs := r.client.codeInputs, focus := 0) &&
              |r.client.codeInputs| == |c.codeInputs| &&
              forall k :: 0 <= k < |c.codeInputs| ==> r.client.codeInputs[k] == ""
    ensures serverError && r.queried ==> r.notice == Some(ServerError)
    ensures Valid(c) ==> Valid(r.client)
  {
    var code := EnteredCode(c);
    if |code| < CODE_LENGTH then VerifyResult(c, Some(IncompleteCode), false)
    else
      match LookupForCode(t, c.deliveryId, code, serverError)
      case QueryFailed => VerifyFailed(c, ServerError)
      case NoRow => VerifyFailed(c, if Present(c.deliveryId) then OrderNotFound else CodeNotFound)
      case Found(row) =>
        if row.accessCode == code then
          VerifyResult(c.(step := Location, deliveryId := Some(row.id), verifyEnabled := false),
                       None, true)
        else VerifyFailed(c, WrongCode)
  }

  /** A click on the verify button runs the handler only while it is enabled. */
  function OnVerifyClick(c: Client, t: Table, serverError: bool): (r: VerifyResult)
    ensures !c.verifyEnabled ==> r == VerifyResult(c, None, false)
    ensures c.verifyEnabled ==> r == HandleVerifyCode(c, t, serverError)
  {
    if c.verifyEnabled then HandleVerifyCode(c, t, serverError) else VerifyResult(c, None, false)
  }

  /** With an id from the link, the code is checked against that row alone:
      verification succeeds exactly when the row exists and holds the
      entered code, and then the session keeps that id; the row with a
      different code gives the wrong-code notice. */
  lemma TargetedVerification(c: Client, t: Table)
    requires UniqueIds(t)
    requires Present(c.deliveryId) && |EnteredCode(c)| >= CODE_LENGTH
    ensures HandleVerifyCode(c, t, false).notice.None? <==>
              exists k :: 0 <= k < |t| && t[k].id == c.deliveryId.value && t[k].accessCode == EnteredCode(c)
    ensures HandleVerifyCode(c, t, false).notice.None? ==>
              HandleVerifyCode(c, t, false).client.deliveryId == c.deliveryId
    ensures (exists k :: 0 <= k < |t| && t[k].id == c.deliveryId.value && t[k].accessCode != EnteredCode(c)) ==>
              HandleVerifyCode(c, t, false).notice == Some(WrongCode)
  {
    SelectByIdFinds(t, c.deliveryId.value);
  }

  /** The targeted check ignores the status: a row already located still
      accepts its code. */
  lemma TargetedIgnoresStatus(c: Client, t: Table, k: nat)
    requires UniqueIds(t)
    requires Present(c.deliveryId) && |EnteredCode(c)| >= CODE_LENGTH
    requires k < |t| && t[k].id == c.deliveryId.value && t[k].accessCode == EnteredCode(c)
    requires t[k].status == LOCATED
    ensures HandleVerifyCode(c, t, false).client.step == Location
  {
    SelectByIdFinds(t, c.deliveryId.value);
  }

  /** With an id from the link but no such row, `.single()` reports an
      error, so the customer sees the connection message rather than
      "order not found". */
  lemma TargetedMissingRowIsServerError(c: Client, t: Table)
    requires Present(c.deliveryId) && |EnteredCode(c)| >= CODE_LENGTH
    requires forall k :: 0 <= k < |t| ==> t[k].id != c.deliveryId.value
    ensures HandleVerifyCode(c, t, false).notice == Some(ServerError)
  {
  }

  /** Without an id, verification succeeds exactly when some pending row has
      the code, and the session takes the id of the newest such row. */
  lemma UniversalVerification(c: Client, t: Table)
    requires !Present(c.deliveryId) && |EnteredCode(c)| >= CODE_LENGTH
    ensures HandleVerifyCode(c, t, false).notice.None? <==>
              exists k :: 0 <= k < |t| && PendingWithCode(t[k], EnteredCode(c))
    ensures HandleVerifyCode(c, t, false).notice.None? ==>
              var id := HandleVerifyCode(c, t, false).client.deliveryId.value;
              exists k :: 0 <= k < |t| && t[k].id == id && PendingWithCode(t[k], EnteredCode(c)) &&
                forall j :: 0 <= j < |t| && PendingWithCode(t[j], EnteredCode(c)) ==>
                  t[j].createdAt <= t[k].createdAt
    ensures HandleVerifyCode(c, t, false).notice.Some? ==>
              HandleVerifyCode(c, t, false).notice == Some(CodeNotFound)
  {
    var code := EnteredCode(c);
    var newest := NewestPendingWithCode(t, code);
    if newest.Some? {
      var k :| 0 <= k < |t| && t[k] == newest.value;
      assert t[k].id == HandleVerifyCode(c, t, false).client.deliveryId.value;
    }
  }

  /** Any four characters pass the length check and reach the backend,
      digits or not. */
  lemma LengthIsTheOnlyCheck(c: Client, t: Table, serverError: bool)
    requires c.codeInputs == ["a", "b", "c", "d"]
    ensures HandleVerifyCode(c, t, serverError).queried
  {
    assert Concat(["d"]) == "d";
    assert Concat(["c", "d"]) == "cd";
    assert Concat(["b", "c", "d"]) == "bcd";
    assert EnteredCode(c) == "abcd";
  }

  // ---------------------------------------------------------------------
  // sending the location
  // ---------------------------------------------------------------------

  /** `selectedPhoto.name.split('.').pop()`: the text after the last '.', or
      the whole name when it has none. */
  function Extension(name: string): (ext: string)
    ensures '.' !in ext
    ensures '.' !in name ==> ext == name
    ensures '.' in name ==> |ext| < |name| &&
                            SplitAtLast(name, '.') == Some((name[..|name| - |ext| - 1], ext))
  {
    var parts := Split(name, '.');
    ExtensionIsAfterLastDot(name);
    parts[|parts| - 1]
  }

  lemma ExtensionIsAfterLastDot(name: string)
    ensures var parts := Split(name, '.');
            var ext := parts[|parts| - 1];
            ('.' !in name ==> ext == name) &&
            ('.' in name ==> |ext| < |name| &&
                             SplitAtLast(name, '.') == Some((name[..|name| - |ext| - 1], ext)))
  {
    var parts := Split(name, '.');
    var n := |parts|;
    var ext := parts[n - 1];
    JoinSplit(name, '.');
    SplitCountsSeparator(name, '.');
    if n > 1 {
      assert parts == parts[..n - 1] + [ext];
      JoinSnoc(parts[..n - 1], ext, '.');
      var stem := Join(parts[..n - 1], '.');
      assert name == stem + ['.'] + ext;
      SplitAtLastUnique(stem, '.', ext);
      assert name[..|name| - |ext| - 1] == stem;
    }
  }

  /** `fotos/${currentDeliveryId}-${Date.now()}.${fileExt}`: a file in the
      `fotos/` folder whose name starts with the delivery id and a '-'. */
  function PhotoPath(id: string, millis: nat, name: string): (path: string)
    ensures |path| > 7 + |id| && path[..6] == "fotos/"
    ensures path[6..6 + |id|] == id && path[6 + |id|] == '-'
  {
    "fotos/" + id + "-" + NatToDecimal(millis) + "." + Extension(name)
  }

  /** Reads a photo path back into its id, time and extension. */
  function ParsePhotoPath(path: string): Option<(string, nat, string)> {
    if |path| < 6 || path[..6] != "fotos/" then None
    else
      match SplitAtLast(path[6..], '.')
      case None => None
      case Some(halves) =>
        match SplitAtLast(halves.0, '-')
        case None => None
        case Some(pieces) =>
          if AllDigits(pieces.1) then Some((pieces.0, DecimalValue(pieces.1), halves.1)) else None
  }

  /** The photo path determines the delivery id, the time and the
      extension, whatever characters the id holds. */
  lemma PhotoPathRoundTrip(id: string, millis: nat, name: string)
    ensures ParsePhotoPath(PhotoPath(id, millis, name)) == Some((id, millis, Extension(name)))
  {
    ParsesBack(id, millis, Extension(name));
  }

  lemma ParsesBack(id: string, millis: nat, ext: string)
    requires '.' !in ext
    ensures ParsePhotoPath("fotos/" + id + "-" + NatToDecimal(millis) + "." + ext) == Some((id, millis, ext))
  {
    var digits := NatToDecimal(millis);
    var path := "fotos/" + id + "-" + NatToDecimal(millis) + "." + ext;
    var stem := id + ['-'] + digits;
    assert path == "fotos/" + (stem + ['.'] + ext);
    assert path[6..] == stem + ['.'] + ext;
    SplitAtLastUnique(stem, '.', ext);
    assert '-' !in digits by {
      forall k | 0 <= k < |digits| ensures digits[k] != '-' {
        assert IsDigit(digits[k]);
      }
    }
    SplitAtLastUnique(id, '-', digits);
    DecimalRoundTrip(millis);
  }

  /** What the GPS answers: a position, or an error with its code (1 = permission denied). */
  datatype GpsOutcome = Position(latitude: real, longitude: real, accuracy: real) | PositionError(code: int)

  /** Whether an upload or an update request succeeded. */
  datatype Transfer = Done | Failed

  datatype SendNotice =
    | InvalidSession   // "Sessão inválida."
    | NoGeolocation    // "Seu navegador não suporta geolocalização."
    | GpsDenied        // "Por favor, autorize o acesso ao GPS"
    | GpsUnavailable   // "Erro ao obter localização."
    | UploadFailed     // "Erro ao enviar: Erro ao fazer upload da foto: ..."
    | UpdateFailed     // "Erro ao enviar: ..."

  /** The requests `handleSendLocation` issues, in the order it issues them. */
  datatype Request = Geolocate | Upload(path: string) | Update(id: string, fields: LocationUpdate)

  function Rank(q: Request): nat {
    match q
    case Geolocate => 0
    case Upload(_) => 1
    case Update(_, _) => 2
  }

  /** GPS first, then at most one upload, then at most one update. */
  predicate PipelineOrder(qs: seq<Request>) {
    (|qs| > 0 ==> qs[0] == Geolocate) &&
    forall k :: 0 < k < |qs| ==> Rank(qs[k - 1]) < Rank(qs[k])
  }

  predicate Updates(qs: seq<Request>) {
    exists k :: 0 <= k < |qs| && qs[k].Update?
  }

  /** After `handleSendLocation`: the new state and table, the alert shown
      (none on success), and the requests issued. */
  datatype SendResult = SendResult(client: Client, table: Table, notice: Option<SendNotice>,
                                   requests: seq<Request>)

  /** The update payload: located, confirmed, at the GPS position, now. */
  function LocationFields(latitude: real, longitude: real, accuracy: real, now: nat,
                          photoUrl: Option<string>): (u: LocationUpdate)
    ensures u.status == LOCATED && u.confirmedByCustomer && u.photoUrl == photoUrl
    ensures u.latitude == latitude && u.longitude == longitude && u.accuracy == accuracy
    ensures u.locatedAt == now
  {
    LocationUpdate(latitude, longitude, accuracy, LOCATED, true, now, photoUrl)
  }

  /** Step 2 of the pipeline: the update, and its effect on page and table. */
  function Store(c: Client, t: Table, id: string, fields: LocationUpdate,
                 before: seq<Request>, update: Transfer): (r: SendResult)
    ensures r.requests == before + [Update(id, fields)] && Updates(r.requests)
    ensures update == Failed ==>
              r.table == t && r.notice == Some(UpdateFailed) && r.client == c.(sendEnabled := true)
    ensures update == Done ==>
              r.notice.None? && r.client == c.(step := Success, sendEnabled := false) &&
              |r.table| == |t| &&
              forall k :: 0 <= k < |t| ==>
                (t[k].id == id ==> r.table[k].status == fields.status &&
                                   r.table[k].latitude == Some(fields.latitude) &&
                                   r.table[k].longitude == Some(fields.longitude)) &&
                (t[k].id != id ==> r.table[k] == t[k])
  {
    var qs := before + [Update(id, fields)];
    assert qs[|qs| - 1].Update?;
    if update == Failed then SendResult(c.(sendEnabled := true), t, Some(UpdateFailed), qs)
    else SendResult(c.(step := Success, sendEnabled := false), UpdateById(t, id, fields), None, qs)
  }

  /** `handleSendLocation` run to completion. `geolocation` says whether the
      browser has it; `gps`, `upload` and `update` are the answers; `millis`
      is `Date.now()` when the photo is named, `now` the time stamped on the
      row; `publicUrl` is the bucket's public address for a path. */
  function HandleSendLocation(c: Client, t: Table, geolocation: bool, gps: GpsOutcome,
                              upload: Transfer, update: Transfer, millis: nat, now: nat,
                              publicUrl: string -> string): (r: SendResult)
    ensures !Present(c.deliveryId) ==> r == SendResult(c, t, Some(InvalidSession), [])
    ensures Present(c.deliveryId) && !geolocation ==> r == SendResult(c, t, Some(NoGeolocation), [])
    ensures PipelineOrder(r.requests)
    ensures !Updates(r.requests) ==> r.table == t
    ensures c.photo.None? ==> forall k :: 0 <= k < |r.requests| ==> !r.requests[k].Upload?
    ensures r.notice.Some? ==> r.table == t && r.client.step == c.step
    ensures r.notice.Some? && r.requests != [] ==> r.client == c.(sendEnabled := true)
    ensures r.notice.None? ==>
              r.client == c.(step := Success, sendEnabled := false) &&
              gps.Position? && update == Done && (c.photo.Some? ==> upload == Done) &&
              |r.requests| > 0 && r.requests[|r.requests| - 1] ==
                Update(c.deliveryId.value,
                       LocationFields(gps.latitude, gps.longitude, gps.accuracy, now,
                                      if c.photo.Some? then Some(publicUrl(PhotoPath(c.deliveryId.value, millis, c.photo.value.name)))
                                      else None)) &&
              r.table == UpdateById(t, c.deliveryId.value, r.requests[|r.requests| - 1].fields)
    ensures r.notice.None? ==>
              r.requests == (if c.photo.Some? then [Geolocate, Upload(PhotoPath(c.deliveryId.value, millis, c.photo.value.name))]
                             else [Geolocate]) + [r.requests[|r.requests| - 1]]
    ensures Present(c.deliveryId) && geolocation && gps.Position? && c.photo.Some? ==>
              |r.requests| >= 2 &&
              r.requests[..2] == [Geolocate, Upload(PhotoPath(c.deliveryId.value, millis, c.photo.value.name))]
    ensures Present(c.deliveryId) && geolocation && gps.PositionError? ==>
              r.requests == [Geolocate] && (r.notice == Some(GpsDenied) <==> gps.code == 1) &&
              (r.notice == Some(GpsUnavailable) <==> gps.code != 1)
  {
    if !Present(c.deliveryId) then SendResult(c, t, Some(InvalidSession), [])
    else if !geolocation then SendResult(c, t, Some(NoGeolocation), [])
    else
      var id := c.deliveryId.value;
      match gps
      case PositionError(code) =>
        SendResult(c.(sendEnabled := true), t, Some(if code == 1 then GpsDenied else GpsUnavailable),
                   [Geolocate])
      case Position(latitude, longitude, accuracy) =>
        if c.photo.Some? then
          var path := PhotoPath(id, millis, c.photo.value.name);
          if upload == Failed then
            SendResult(c.(sendEnabled := true), t, Some(UploadFailed), [Geolocate, Upload(path)])
          else
            Store(c, t, id, LocationFields(latitude, longitude, accuracy, now, Some(publicUrl(path))),
                  [Geolocate, Upload(path)], update)
        else
          Store(c, t, id, LocationFields(latitude, longitude, accuracy, now, None),
                [Geolocate], update)
  }

  /** A click on the send button runs the handler only while the button is
      enabled and shown, that is, on the location step. */
  function OnSendClick(c: Client, t: Table, geolocation: bool, gps: GpsOutcome,
                       upload: Transfer, update: Transfer, millis: nat, now: nat,
                       publicUrl: string -> string): (r: SendResult)
    ensures !c.sendEnabled || c.step != Location ==> r == SendResult(c, t, None, [])
    ensures c.sendEnabled && c.step == Location ==>
              r == HandleSendLocation(c, t, geolocation, gps, upload, update, millis, now, publicUrl)
  {
    if c.sendEnabled && c.step == Location then
      HandleSendLocation(c, t, geolocation, gps, upload, update, millis, now, publicUrl)
    else SendResult(c, t, None, [])
  }

  /** Once the position is known and the photo is chosen, a failed upload
      ends the attempt: no update, the row unchanged, the page still on the
      location step with sending enabled again. */
  lemma UploadFailureAborts(c: Client, t: Table, gps: GpsOutcome, update: Transfer,
                            millis: nat, now: nat, publicUrl: string -> string)
    requires Present(c.deliveryId) && gps.Position? && c.photo.Some?
    ensures var r := HandleSendLocation(c, t, true, gps, Failed, update, millis, now, publicUrl);
            r.table == t && !Updates(r.requests) && r.notice == Some(UploadFailed) &&
            r.client.step == c.step && r.client.sendEnabled &&
            r.requests == [Geolocate, Upload(PhotoPath(c.deliveryId.value, millis, c.photo.value.name))]
  {
  }

  /** Past the two guards, sending reaches Success exactly when the GPS, the
      upload (when there is a photo) and the update all succeed. */
  lemma SendSucceedsExactly(c: Client, t: Table, gps: GpsOutcome, upload: Transfer,
                            update: Transfer, millis: nat, now: nat, publicUrl: string -> string)
    requires Present(c.deliveryId)
    ensures HandleSendLocation(c, t, true, gps, upload, update, millis, now, publicUrl).client.step == Success
            <==> (c.step == Success ||
                  (gps.Position? && (c.photo.None? || upload == Done) && update == Done))
  {
  }

  /** The photo is optional to the handler itself: without one, nothing is
      uploaded and the row is located with no photo address. */
  lemma SendWithoutPhoto(c: Client, t: Table, gps: GpsOutcome, millis: nat, now: nat,
                         publicUrl: string -> string, k: nat)
    requires Present(c.deliveryId) && c.photo.None? && gps.Position?
    requires k < |t| && t[k].id == c.deliveryId.value
    ensures var r := HandleSendLocation(c, t, true, gps, Failed, Done, millis, now, publicUrl);
            r.notice.None? && r.requests == [Geolocate, r.requests[1]] && r.requests[1].Update? &&
            r.table[k].status == LOCATED && r.table[k].photoUrl.None? &&
            r.table[k].latitude == Some(gps.latitude) && r.table[k].longitude == Some(gps.longitude)
  {
  }

  /** A successful send locates the session's row with the GPS position
      and the uploaded photo's address. */
  lemma SendLocatesTheRow(c: Client, t: Table, gps: GpsOutcome, upload: Transfer, update: Transfer,
                          millis: nat, now: nat, publicUrl: string -> string, k: nat)
    requires k < |t| && Present(c.deliveryId) && t[k].id == c.deliveryId.value
    ensures var r := HandleSendLocation(c, t, true, gps, upload, update, millis, now, publicUrl);
            r.notice.None? ==>
              r.table[k].status == LOCATED && r.table[k].confirmedByCustomer &&
              r.table[k].latitude == Some(gps.latitude) && r.table[k].longitude == Some(gps.longitude) &&
              r.table[k].accuracy == Some(gps.accuracy) && r.table[k].locatedAt == Some(now) &&
              (c.photo.Some? ==> r.table[k].photoUrl == Some(publicUrl(PhotoPath(c.deliveryId.value, millis, c.photo.value.name)))) &&
              (c.photo.None? ==> r.table[k].photoUrl.None?)
  {
  }

  /** An update that matches no row is not an error: with no row for the
      session's id the page still shows Success and the table is unchanged. */
  lemma SuccessWithoutRow(c: Client, t: Table, gps: GpsOutcome, millis: nat, now: nat,
                          publicUrl: string -> string)
    requires Present(c.deliveryId) && gps.Position? && c.photo.None?
    requires forall k :: 0 <= k < |t| ==> t[k].id != c.deliveryId.value
    ensures var r := HandleSendLocation(c, t, true, gps, Done, Done, millis, now, publicUrl);
            r.client.step == Success && r.table == t
  {
    var r := HandleSendLocation(c, t, true, gps, Done, Done, millis, now, publicUrl);
    UpdateMissingIdIsNoOp(t, c.deliveryId.value, r.requests[|r.requests| - 1].fields);
  }

  /** Sending never leaves a located row without coordinates. */
  lemma SendKeepsCoordinates(c: Client, t: Table, geolocation: bool, gps: GpsOutcome,
                             upload: Transfer, update: Transfer, millis: nat, now: nat,
                             publicUrl: string -> string)
    requires LocatedHaveCoordinates(t)
    ensures LocatedHaveCoordinates(HandleSendLocation(c, t, geolocation, gps, upload, update, millis, now, publicUrl).table)
  {
    var r := HandleSendLocation(c, t, geolocation, gps, upload, update, millis, now, publicUrl);
    if r.notice.None? {
      UpdateKeepsCoordinates(t, c.deliveryId.value, r.requests[|r.requests| - 1].fields);
    }
  }

  /** Sending keeps positions and photos on located rows only: the update
      writes the located status together with them. */
  lemma SendKeepsOnlyLocated(c: Client, t: Table, geolocation: bool, gps: GpsOutcome,
                             upload: Transfer, update: Transfer, millis: nat, now: nat,
                             publicUrl: string -> string)
    requires OnlyLocatedHaveCoordinates(t)
    ensures OnlyLocatedHaveCoordinates(HandleSendLocation(c, t, geolocation, gps, upload, update, millis, now, publicUrl).table)
  {
    var r := HandleSendLocation(c, t, geolocation, gps, upload, update, millis, now, publicUrl);
    if r.notice.None? {
      UpdateKeepsOnlyLocated(t, c.deliveryId.value, r.requests[|r.requests| - 1].fields);
    }
  }

  /** A click reaches Success, issues a request or changes the table only
      from the location step, that is, after the code was verified. */
  lemma SendOnlyFromLocation(c: Client, t: Table, geolocation: bool, gps: GpsOutcome,
                             upload: Transfer, update: Transfer, millis: nat, now: nat,
                             publicUrl: string -> string)
    ensures var r := OnSendClick(c, t, geolocation, gps, upload, update, millis, now, publicUrl);
            (r.requests != [] ==> c.step == Location) &&
            (r.table != t ==> c.step == Location) &&
            (r.client.step == Success && c.step != Success ==> c.step == Location)
  {
  }

  /** On a freshly loaded page, picking a photo and clicking send does
      nothing: the code has to be verified first. */
  lemma NoSendBeforeVerification(url: string, boxes: nat, files: seq<Photo>, t: Table,
                                 geolocation: bool, gps: GpsOutcome, upload: Transfer,
                                 update: Transfer, millis: nat, now: nat,
                                 publicUrl: string -> string)
    requires boxes >= 1
    ensures var c := OnPhotoChosen(Start(url, boxes), files);
            var r := OnSendClick(c, t, geolocation, gps, upload, update, millis, now, publicUrl);
            r.requests == [] && r.table == t && r.client.step == Auth
  {
  }

  /** For a click on an enabled send button of a valid page, Success comes
      exactly when the GPS, the upload and the update all succeed. */
  lemma ClickSucceedsExactly(c: Client, t: Table, gps: GpsOutcome, upload: Transfer,
                             update: Transfer, millis: nat, now: nat, publicUrl: string -> string)
    requires Valid(c) && c.sendEnabled && Present(c.deliveryId)
    ensures OnSendClick(c, t, true, gps, upload, update, millis, now, publicUrl).client.step == Success
            <==> gps.Position? && upload == Done && update == Done
  {
    SendSucceedsExactly(c, t, gps, upload, update, millis, now, publicUrl);
  }

  /** At the level of the page, a send needs a chosen photo: the button is
      enabled only with one, and every click handler keeps it that way. */
  lemma ClicksKeepValid(c: Client, t: Table, geolocation: bool, gps: GpsOutcome,
                        upload: Transfer, update: Transfer, millis: nat, now: nat,
                        publicUrl: string -> string, serverError: bool)
    requires Valid(c)
    ensures Valid(OnSendClick(c, t, geolocation, gps, upload, update, millis, now, publicUrl).client)
    ensures Valid(OnVerifyClick(c, t, serverError).client)
    ensures OnSendClick(c, t, geolocation, gps, upload, update, millis, now, publicUrl).requests != [] ==>
              c.photo.Some?
  {
  }
}

=== FILE: dashboard.dfy ===
/** The seller dashboard as a view-model: what it shows for a list of
    delivery rows, the code it draws for a new delivery, the create form,
    the order-options and details panels, and the links it shares.
 */
module Dashboard {

  import opened Values
  import opened Text
  import opened Deliveries
  import Links

  // ---------------------------------------------------------------------
  // customer initials
  // ---------------------------------------------------------------------

  /** `parts.map(n => n[0]).join('')`: an empty piece yields `undefined`,
      which `join` prints as nothing. */
  function FirstChars(parts: seq<string>): string
    decreases |parts|
  {
    if |parts| == 0 then ""
    else (if |parts[0]| > 0 then [parts[0][0]] else "") + FirstChars(parts[1..])
  }

  /** Reference definition: the first character of every word (maximal run
      of characters other than ' '), in order. `atStart` says whether the
      text before `s` ended a word (or there was none). */
  function WordInitials(s: string, atStart: bool): (r: string)
    ensures |r| <= |s|
    ensures forall k :: 0 <= k < |r| ==> r[k] != ' ' && r[k] in s
    decreases |s|
  {
    if |s| == 0 then ""
    else (if atStart && s[0] != ' ' then [s[0]] else "") + WordInitials(s[1..], s[0] == ' ')
  }

  /** Splitting on ' ' and keeping each piece's first character picks out
      exactly the first character of every word. */
  lemma {:induction false} FirstCharsOfWords(s: string)
    ensures FirstChars(Split(s, ' ')) == WordInitials(s, true)
    ensures FirstChars(Split(s, ' ')[1..]) == WordInitials(s, false)
    decreases |s|
  {
    if |s| > 0 {
      var rest := Split(s[1..], ' ');
      FirstCharsOfWords(s[1..]);
      if s[0] == ' ' {
        assert Split(s, ' ') == [""] + rest;
        assert ([""] + rest)[1..] == rest;
      } else {
        var parts := [[s[0]] + rest[0]] + rest[1..];
        assert Split(s, ' ') == parts;
        assert parts[1..] == rest[1..];
      }
    }
  }

  /** `getInitials(name)`: "??" for a missing or empty name, otherwise the
      upper-cased first characters of the first two words. */
  function Initials(name: Option<string>): (r: string)
    ensures !Present(name) ==> r == "??"
    ensures Present(name) ==>
              |r| == Min(2, |WordInitials(name.value, true)|) &&
              forall k :: 0 <= k < |r| ==> r[k] == UpperChar(WordInitials(name.value, true)[k])
  {
    if !Present(name) then "??"
    else
      FirstCharsOfWords(name.value);
      Take(ToUpper(FirstChars(Split(name.value, ' '))), 2)
  }

  /** A name made only of spaces has no words, so it shows no initials. */
  lemma BlankNameHasNoInitials(name: string)
    requires |name| > 0 && forall k :: 0 <= k < |name| ==> name[k] == ' '
    ensures Initials(Some(name)) == ""
  {
    assert forall c :: c in name ==> c == ' ';
  }

  /** The placeholder cannot come from a name without '?'. */
  lemma InitialsOfNamedCustomer(name: string)
    requires |name| > 0 && '?' !in name
    ensures Initials(Some(name)) != "??"
  {
    var r := Initials(Some(name));
    var w := WordInitials(name, true);
    if |r| == 2 {
      assert w[0] in name;
      assert r[0] == UpperChar(w[0]) != '?';
    }
  }

  /** ...but a name may produce it: "? ?" shows "??" just as a missing name does. */
  lemma PlaceholderIsNotExclusive()
    ensures Initials(Some("? ?")) == "??"
  {
    var name := "? ?";
    FirstCharsOfWords(name);
    assert WordInitials(name, true) == "??" by {
      assert WordInitials(name[2..], true) == "?";
      assert WordInitials(name[1..], false) == "?";
    }
  }

  // ---------------------------------------------------------------------
  // order label, status labels, counts
  // ---------------------------------------------------------------------

  /** `id.toString().slice(-5)`: the last five characters of the id. */
  function ShortId(id: string): (r: string)
    ensures |r| == Min(5, |id|)
    ensures id == id[..|id| - |r|] + r
    ensures |id| <= 5 ==> r == id
  {
    TakeLast(id, 5)
  }

  function OrderLabel(id: string): string {
    "Pedido #" + ShortId(id)
  }

  /** The two places a row is listed: the table and the card grid. */
  datatype View = TableView | CardView

  /** The words each view uses for a pending and for a located row. */
  function PendingWord(v: View): string {
    match v
    case TableView => "Aguardando GPS"
    case CardView => "Pendente"
  }

  function LocatedWord(v: View): string {
    match v
    case TableView => "Localizado"
    case CardView => "Confirmado"
  }

  /** The status label a view shows: anything but "pendente" reads as located. */
  function StatusLabel(v: View, status: string): (shown: string)
    ensures shown == PendingWord(v) <==> status == PENDING
    ensures shown == LocatedWord(v) <==> status != PENDING
  {
    if status == PENDING then PendingWord(v) else LocatedWord(v)
  }

  /** A row whose status is neither "pendente" nor "localizado" is shown as
      located in both views, yet neither count includes it. */
  lemma OtherStatusShownLocatedButUncounted(r: DeliveryRecord)
    requires r.status != PENDING && r.status != LOCATED
    ensures StatusLabel(TableView, r.status) == "Localizado"
    ensures StatusLabel(CardView, r.status) == "Confirmado"
    ensures CountStatus([r], PENDING) == 0 && CountStatus([r], LOCATED) == 0
  {
  }

  /** `n.toString().padStart(2, '0')`: at least two digits, never truncated. */
  function CountText(n: nat): (s: string)
    ensures AllDigits(s) && DecimalValue(s) == n
    ensures |s| >= 2
    ensures n < 10 ==> |s| == 2 && s[0] == '0'
    ensures n >= 10 ==> s == NatToDecimal(n)
  {
    var d := NatToDecimal(n);
    DecimalRoundTrip(n);
    DecimalLength(n, 1);
    if |d| < 2 then
      LeadingZeros(2 - |d|, d);
      PadStart(d, 2, '0')
    else
      PadStart(d, 2, '0')
  }

  lemma CountTextExamples()
    ensures CountText(0) == "00"
    ensures CountText(7) == "07"
    ensures CountText(123) == "123"
  {
    assert NatToDecimal(12) == "12";
    assert NatToDecimal(123) == "123";
  }

  // ---------------------------------------------------------------------
  // the listing
  // ---------------------------------------------------------------------

  datatype Row = Row(id: string, initials: string, name: string, orderLabel: string,
                     code: string, statusLabel: string)

  datatype Card = Card(id: string, code: string, name: string, statusLabel: string)

  datatype Listing = EmptyState | Listed(rows: seq<Row>, cards: seq<Card>)

  /** What the dashboard shows: the two views and the two counters. */
  datatype Screen = Screen(listing: Listing, pendingText: string, locatedText: string)

  /** One line of the table view: the row's id and code, the initials and
      name of its customer ("Sem Nome" when there is none), the order label
      with the id's last five characters, and the table's status word. */
  function RowOf(r: DeliveryRecord): (row: Row)
    ensures row.id == r.id && row.code == r.accessCode
    ensures row.initials == Initials(r.customerName)
    ensures Present(r.customerName) ==> row.name == r.customerName.value
    ensures !Present(r.customerName) ==> row.name == "Sem Nome"
    ensures row.orderLabel == "Pedido #" + ShortId(r.id)
    ensures row.statusLabel == PendingWord(TableView) <==> r.status == PENDING
    ensures row.statusLabel == LocatedWord(TableView) <==> r.status != PENDING
  {
    Row(r.id, Initials(r.customerName), OrElse(r.customerName, "Sem Nome"),
        OrderLabel(r.id), r.accessCode, StatusLabel(TableView, r.status))
  }

  /** One card of the mobile view: id, code, customer name ("Sem Nome" when
      there is none) and the card's status word. */
  function CardOf(r: DeliveryRecord): (card: Card)
    ensures card.id == r.id && card.code == r.accessCode
    ensures Present(r.customerName) ==> card.name == r.customerName.value
    ensures !Present(r.customerName) ==> card.name == "Sem Nome"
    ensures card.statusLabel == PendingWord(CardView) <==> r.status == PENDING
    ensures card.statusLabel == LocatedWord(CardView) <==> r.status != PENDING
  {
    Card(r.id, r.accessCode, OrElse(r.customerName, "Sem Nome"), StatusLabel(CardView, r.status))
  }

  function RowsOf(t: Table): (rows: seq<Row>)
    ensures |rows| == |t| && forall i :: 0 <= i < |t| ==> rows[i] == RowOf(t[i])
  {
    seq(|t|, i requires 0 <= i < |t| => RowOf(t[i]))
  }

  /** How many table rows carry the given status label. */
  function CountShown(rows: seq<Row>, shown: string): nat
    decreases |rows|
  {
    if |rows| == 0 then 0
    else (if rows[0].statusLabel == shown then 1 else 0) + CountShown(rows[1..], shown)
  }

  /** `renderEntregas(entregas)` with its call to `updateStats`. */
  function Render(t: Table): (s: Screen)
    ensures s.listing.EmptyState? <==> |t| == 0
    ensures s.listing.Listed? ==>
              |s.listing.rows| == |t| && |s.listing.cards| == |t| &&
              forall i :: 0 <= i < |t| ==>
                s.listing.rows[i].id == t[i].id && s.listing.cards[i].id == t[i].id &&
                s.listing.rows[i].code == t[i].accessCode && s.listing.cards[i].code == t[i].accessCode &&
                s.listing.rows[i].initials == Initials(t[i].customerName) &&
                s.listing.rows[i].name == OrElse(t[i].customerName, "Sem Nome") &&
                s.listing.cards[i].name == OrElse(t[i].customerName, "Sem Nome") &&
                s.listing.rows[i].orderLabel == "Pedido #" + ShortId(t[i].id) &&
                (s.listing.rows[i].statusLabel == "Aguardando GPS" <==> t[i].status == PENDING) &&
                (s.listing.cards[i].statusLabel == "Pendente" <==> t[i].status == PENDING) &&
                (s.listing.rows[i].statusLabel == "Localizado" <==> t[i].status != PENDING) &&
                (s.listing.cards[i].statusLabel == "Confirmado" <==> t[i].status != PENDING)
    ensures s.listing.Listed? ==>
              s.listing.rows == RowsOf(t) && forall i :: 0 <= i < |t| ==> s.listing.cards[i] == CardOf(t[i])
    ensures AllDigits(s.pendingText) && DecimalValue(s.pendingText) == CountStatus(t, PENDING)
    ensures AllDigits(s.locatedText) && DecimalValue(s.locatedText) == CountStatus(t, LOCATED)
    ensures |t| == 0 ==> s.pendingText == "00" && s.locatedText == "00"
  {
    if |t| == 0 then
      CountTextExamples();
      Screen(EmptyState, CountText(0), CountText(0))
    else
      Screen(Listed(RowsOf(t),
                    seq(|t|, i requires 0 <= i < |t| => CardOf(t[i]))),
             CountText(CountStatus(t, PENDING)), CountText(CountStatus(t, LOCATED)))
  }

  /** The two counters never add up to more rows than are listed. */
  lemma CountersBoundedByRows(t: Table)
    ensures DecimalValue(Render(t).pendingText) + DecimalValue(Render(t).locatedText) <= |t|
  {
    CountsOfTwoStatuses(t, PENDING, LOCATED);
  }

  /** The pending counter equals the number of rows labelled "Aguardando
      GPS"; every other row is labelled "Localizado", which is at least as
      many as the located counter shows. */
  lemma {:induction false} CountersMatchLabels(t: Table)
    ensures CountShown(RowsOf(t), "Aguardando GPS") == CountStatus(t, PENDING)
    ensures CountShown(RowsOf(t), "Localizado") == |t| - CountStatus(t, PENDING)
    ensures CountStatus(t, LOCATED) <= CountShown(RowsOf(t), "Localizado")
    decreases |t|
  {
    CountsOfTwoStatuses(t, PENDING, LOCATED);
    if |t| > 0 {
      assert RowsOf(t)[1..] == RowsOf(t[1..]);
      CountersMatchLabels(t[1..]);
    }
  }

  // ---------------------------------------------------------------------
  // access code
  // ---------------------------------------------------------------------

  /** `Math.floor(1000 + Math.random() * 9000)` for a draw `u` of `Math.random()`. */
  function AccessCodeNumber(u: real): (code: int)
    requires 0.0 <= u < 1.0
    ensures 1000 <= code <= 9999
  {
    (1000.0 + u * 9000.0).Floor
  }

  /** The code as text: always exactly four digits, the first not zero. */
  function AccessCode(u: real): (code: string)
    requires 0.0 <= u < 1.0
    ensures |code| == 4 && AllDigits(code) && code[0] != '0'
    ensures DecimalValue(code) == AccessCodeNumber(u)
  {
    var n := AccessCodeNumber(u);
    DecimalRoundTrip(n);
    DecimalLength(n, 4);
    DecimalLength(n, 3);
    NatToDecimal(n)
  }

  /** Every four-digit code can be drawn. */
  lemma EveryCodeCanBeDrawn(c: int)
    requires 1000 <= c <= 9999
    ensures AccessCodeNumber((c - 1000) as real / 9000.0) == c
  {
    var u := (c - 1000) as real / 9000.0;
    assert 1000.0 + u * 9000.0 == c as real;
  }

  // ---------------------------------------------------------------------
  // create form
  // ---------------------------------------------------------------------

  /** The create form; `None` stands for an input missing from the page. */
  datatype Form = Form(name: Option<string>, phone: Option<string>, street: Option<string>,
                       neighborhood: Option<string>, houseNumber: Option<string>,
                       reference: Option<string>)

  function ClearInput(v: Option<string>): Option<string> {
    if v.Some? then Some("") else None
  }

  /** The form after a successful creation: every input on the page emptied. */
  function Cleared(f: Form): Form {
    Form(ClearInput(f.name), ClearInput(f.phone), ClearInput(f.street),
         ClearInput(f.neighborhood), ClearInput(f.houseNumber), ClearInput(f.reference))
  }

  /** The dashboard's own state: the rows in the backend, the form, the
      confirm button and whether the create dialog is open. */
  datatype Seller = Seller(table: Table, form: Form, confirmEnabled: bool, createOpen: bool)

  datatype CreateNotice = MissingRequired | CreateFailed

  /** What the backend answers to the insert: the id and creation time it assigned, or an error. */
  datatype InsertOutcome = Inserted(id: string, createdAt: nat) | InsertRejected

  /** After `handleCreateEntrega`: the new state, the alert shown, and the
      fields sent to the backend (none when validation stopped it). */
  datatype CreateResult = CreateResult(seller: Seller, notice: Option<CreateNotice>,
                                       sent: Option<NewDelivery>)

  /** The fields `criarEntrega` inserts; optional inputs go as "". */
  function CreationFields(f: Form, u: real): (n: NewDelivery)
    requires Present(f.name) && Present(f.phone)
    requires 0.0 <= u < 1.0
    ensures n.customerName == f.name.value && n.phone == f.phone.value
    ensures Present(f.street) ==> n.street == f.street.value
    ensures !Present(f.street) ==> n.street == ""
    ensures Present(f.neighborhood) ==> n.neighborhood == f.neighborhood.value
    ensures !Present(f.neighborhood) ==> n.neighborhood == ""
    ensures Present(f.houseNumber) ==> n.houseNumber == f.houseNumber.value
    ensures !Present(f.houseNumber) ==> n.houseNumber == ""
    ensures Present(f.reference) ==> n.reference == f.reference.value
    ensures !Present(f.reference) ==> n.reference == ""
    ensures n.accessCode == AccessCode(u) && |n.accessCode| == 4 && AllDigits(n.accessCode)
    ensures n.status == PENDING
  {
    NewDelivery(f.name.value, f.phone.value, OrElse(f.street, ""), OrElse(f.neighborhood, ""),
                OrElse(f.houseNumber, ""), OrElse(f.reference, ""), AccessCode(u), PENDING)
  }

  /** `handleCreateEntrega` with `criarEntrega`: validate, insert, then clear
      the form on success or keep it on failure; the button comes back
      enabled either way. */
  function HandleCreate(s: Seller, u: real, outcome: InsertOutcome): (r: CreateResult)
    requires 0.0 <= u < 1.0
    ensures !Present(s.form.name) || !Present(s.form.phone) ==>
              r.sent.None? && r.seller == s && r.notice == Some(MissingRequired)
    ensures Present(s.form.name) && Present(s.form.phone) ==>
              r.sent.Some? && r.seller.confirmEnabled &&
              r.sent.value.customerName == s.form.name.value &&
              r.sent.value.phone == s.form.phone.value &&
              (Present(s.form.street) ==> r.sent.value.street == s.form.street.value) &&
              (!Present(s.form.street) ==> r.sent.value.street == "") &&
              (Present(s.form.neighborhood) ==> r.sent.value.neighborhood == s.form.neighborhood.value) &&
              (!Present(s.form.neighborhood) ==> r.sent.value.neighborhood == "") &&
              (Present(s.form.houseNumber) ==> r.sent.value.houseNumber == s.form.houseNumber.value) &&
              (!Present(s.form.houseNumber) ==> r.sent.value.houseNumber == "") &&
              (Present(s.form.reference) ==> r.sent.value.reference == s.form.reference.value) &&
              (!Present(s.form.reference) ==> r.sent.value.reference == "") &&
              r.sent.value.status == PENDING &&
              r.sent.value.accessCode == AccessCode(u) &&
              |r.sent.value.accessCode| == 4 && AllDigits(r.sent.value.accessCode)
    ensures r.sent.Some? ==> (r.seller.form == Cleared(s.form) <==> outcome.Inserted?)
    ensures r.sent.Some? && outcome.Inserted? ==>
              r.notice.None? && !r.seller.createOpen &&
              r.seller.table == Insert(s.table, r.sent.value, outcome.id, outcome.createdAt)
    ensures r.sent.Some? && outcome.InsertRejected? ==>
              r.notice == Some(CreateFailed) && r.seller.table == s.table &&
              r.seller.form == s.form && r.seller.createOpen == s.createOpen
  {
    if !Present(s.form.name) || !Present(s.form.phone) then
      CreateResult(s, Some(MissingRequired), None)
    else
      var fields := CreationFields(s.form, u);
      assert Cleared(s.form).name != s.form.name;
      match outcome
      case Inserted(id, createdAt) =>
        CreateResult(Seller(Insert(s.table, fields, id, createdAt), Cleared(s.form), true, false),
                     None, Some(fields))
      case InsertRejected =>
        CreateResult(s.(confirmEnabled := true), Some(CreateFailed), Some(fields))
  }

  /** A created row is pending with a four-digit code, and creating keeps
      every located row's coordinates. */
  lemma CreateKeepsCoordinates(s: Seller, u: real, outcome: InsertOutcome)
    requires 0.0 <= u < 1.0
    requires LocatedHaveCoordinates(s.table)
    ensures LocatedHaveCoordinates(HandleCreate(s, u, outcome).seller.table)
    ensures HandleCreate(s, u, outcome).sent.Some? && outcome.Inserted? ==>
              var t := HandleCreate(s, u, outcome).seller.table;
              t[|t| - 1].status == PENDING && |t[|t| - 1].accessCode| == 4
  {
    var r := HandleCreate(s, u, outcome);
    if r.sent.Some? && outcome.Inserted? {
      InsertKeepsCoordinates(s.table, r.sent.value, outcome.id, outcome.createdAt);
    }
  }

  /** Creating a delivery keeps positions and photos on located rows only:
      the new row is pending and has neither. */
  lemma CreateKeepsOnlyLocated(s: Seller, u: real, outcome: InsertOutcome)
    requires 0.0 <= u < 1.0
    requires OnlyLocatedHaveCoordinates(s.table)
    ensures OnlyLocatedHaveCoordinates(HandleCreate(s, u, outcome).seller.table)
  {
    var r := HandleCreate(s, u, outcome);
    if r.sent.Some? && outcome.Inserted? {
      InsertKeepsOnlyLocated(s.table, r.sent.value, outcome.id, outcome.createdAt);
    }
  }

  // ---------------------------------------------------------------------
  // order options, details, sharing
  // ---------------------------------------------------------------------

  /** `currentSharing`: the id and code of the row being shared. */
  datatype Sharing = Sharing(id: Option<string>, code: Option<string>)

  const NO_SHARING: Sharing := Sharing(None, None)

  datatype OrderOptions = OrderOptions(name: string, orderLabel: string, mapsEnabled: bool)

  /** The maps action is live when both coordinates are truthy: a missing
      coordinate and a coordinate of exactly 0 both disable it. */
  predicate MapsEnabled(r: DeliveryRecord) {
    NumberTruthy(r.latitude) && NumberTruthy(r.longitude)
  }

  /** `openOrderOptions(entrega)`: the panel it fills and the row it selects for sharing. */
  function OpenOrderOptions(r: DeliveryRecord): (p: (OrderOptions, Sharing))
    ensures p.1 == Sharing(Some(r.id), Some(r.accessCode))
    ensures Present(r.customerName) ==> p.0.name == r.customerName.value
    ensures !Present(r.customerName) ==> p.0.name == "Sem Nome"
    ensures p.0.orderLabel == "Pedido #" + ShortId(r.id)
    ensures p.0.mapsEnabled <==> r.latitude.Some? && r.longitude.Some? &&
                                 r.latitude.value != 0.0 && r.longitude.value != 0.0
  {
    (OrderOptions(OrElse(r.customerName, "Sem Nome"), OrderLabel(r.id), MapsEnabled(r)),
     Sharing(Some(r.id), Some(r.accessCode)))
  }

  /** A located row away from the equator and the prime meridian can be
      opened on the map; a row at latitude 0 cannot, located or not; a row
      just created cannot. */
  lemma MapsFollowCoordinates(r: DeliveryRecord, t: Table, fields: NewDelivery, id: string, at: nat)
    requires HasCoordinates(r) && r.status == LOCATED
    ensures (r.latitude.value != 0.0 && r.longitude.value != 0.0) ==> OpenOrderOptions(r).0.mapsEnabled
    ensures r.latitude.value == 0.0 ==> !OpenOrderOptions(r).0.mapsEnabled
    ensures !OpenOrderOptions(Insert(t, fields, id, at)[|t|]).0.mapsEnabled
  {
  }

  datatype Details = Details(name: string, street: string, neighborhood: string,
                             houseNumber: string, reference: string, photo: Option<string>)

  /** `openDeliveryDetails(entrega)`: stored values, or a placeholder for each missing one. */
  function OpenDetails(r: DeliveryRecord): (d: Details)
    ensures Present(r.customerName) ==> d.name == r.customerName.value
    ensures !Present(r.customerName) ==> d.name == "Não informado"
    ensures Present(r.street) ==> d.street == r.street.value
    ensures !Present(r.street) ==> d.street == "Não informado"
    ensures Present(r.neighborhood) ==> d.neighborhood == r.neighborhood.value
    ensures !Present(r.neighborhood) ==> d.neighborhood == "Não informado"
    ensures Present(r.houseNumber) ==> d.houseNumber == r.houseNumber.value
    ensures !Present(r.houseNumber) ==> d.houseNumber == "S/N"
    ensures Present(r.reference) ==> d.reference == r.reference.value
    ensures !Present(r.reference) ==> d.reference == "Nenhum ponto de referência"
    ensures d.photo.Some? <==> Present(r.photoUrl)
    ensures d.photo.Some? ==> d.photo.value == r.photoUrl.value
  {
    Details(OrElse(r.customerName, "Não informado"), OrElse(r.street, "Não informado"),
            OrElse(r.neighborhood, "Não informado"), OrElse(r.houseNumber, "S/N"),
            OrElse(r.reference, "Nenhum ponto de referência"),
            if Present(r.photoUrl) then r.photoUrl else None)
  }

  /** No field of the details panel is ever blank. */
  lemma DetailsNeverBlank(r: DeliveryRecord)
    ensures var d := OpenDetails(r);
            |d.name| > 0 && |d.street| > 0 && |d.neighborhood| > 0 &&
            |d.houseNumber| > 0 && |d.reference| > 0
  {
  }

  /** A row created with some address fields left empty shows, in its
      details, what was typed in each field and the placeholder for each
      field left empty: the "" the form sends reads as missing. */
  lemma DetailsOfCreatedRow(s: Seller, u: real, id: string, createdAt: nat)
    requires 0.0 <= u < 1.0
    requires Present(s.form.name) && Present(s.form.phone)
    ensures var t := HandleCreate(s, u, Inserted(id, createdAt)).seller.table;
            var d := OpenDetails(t[|t| - 1]);
            d.name == s.form.name.value &&
            d.street == (if Present(s.form.street) then s.form.street.value else "Não informado") &&
            d.neighborhood == (if Present(s.form.neighborhood) then s.form.neighborhood.value else "Não informado") &&
            d.houseNumber == (if Present(s.form.houseNumber) then s.form.houseNumber.value else "S/N") &&
            d.reference == (if Present(s.form.reference) then s.form.reference.value else "Nenhum ponto de referência") &&
            d.photo.None?
  {
    var r := HandleCreate(s, u, Inserted(id, createdAt));
    var row := r.seller.table[|r.seller.table| - 1];
    assert row.street == Some(r.sent.value.street);
    assert row.neighborhood == Some(r.sent.value.neighborhood);
    assert row.houseNumber == Some(r.sent.value.houseNumber);
    assert row.reference == Some(r.sent.value.reference);
  }

  /** `openShareModal(id, code)`: selects that id and code for sharing. */
  function OpenShare(id: string, code: string): (s: Sharing)
    ensures s != NO_SHARING && s.id == Some(id) && s.code == Some(code)
  {
    Sharing(Some(id), Some(code))
  }

  /** The options panel's share button hands over the row the panel
      already selected, so the share dialog shares that row. */
  lemma ShareButtonKeepsSelection(r: DeliveryRecord)
    ensures OpenShare(r.id, r.accessCode) == OpenOrderOptions(r).1
  {
  }

  /** `copyDeliveryLink`: the link written to the clipboard. */
  function CopyLinkUrl(origin: string, s: Sharing): (url: string)
    ensures url == origin + "/confirmar-localizacao?id=" + Links.IdText(s.id)
  {
    Links.DeliveryUrl(origin, s.id)
  }

  /** `showQRCode`: the link encoded in the per-delivery QR code, the same
      one the copy button writes. */
  function QrCodeUrl(origin: string, s: Sharing): (url: string)
    ensures url == CopyLinkUrl(origin, s)
  {
    Links.DeliveryUrl(origin, s.id)
  }

  /** `showUniversalQRCode`: the link encoded in the universal QR code. */
  function UniversalQrUrl(origin: string): (url: string)
    ensures url == origin + "/confirmar-localizacao"
  {
    Links.UniversalUrl(origin)
  }

  /** Sharing a row copies and encodes the same link, and that link brings
      the customer to that row; the universal code carries no id. */
  lemma SharedLinksReachTheRow(origin: string, r: DeliveryRecord)
    requires '?' !in origin && '#' !in origin
    requires '&' !in r.id && '#' !in r.id
    ensures var s := OpenOrderOptions(r).1;
            CopyLinkUrl(origin, s) == QrCodeUrl(origin, s) &&
            Links.IdParam(CopyLinkUrl(origin, s)) == Some(r.id)
    ensures Links.IdParam(UniversalQrUrl(origin)) == None
  {
    Links.SharedIdRoundTrip(origin, r.id);
    Links.UniversalUrlHasNoId(origin);
  }

  /** Before any row is selected, the copied link names the id "null". */
  lemma UnselectedShareLinksNull(origin: string)
    requires '?' !in origin && '#' !in origin
    ensures Links.IdParam(CopyLinkUrl(origin, NO_SHARING)) == Some("null")
  {
    Links.SharedIdRoundTrip(origin, "null");
  }
}

=== FILE: deliveries.dfy ===
/** The `entregas` table and the reads and writes both pages make on it.

    The hosted backend is replaced by a `seq<DeliveryRecord>`: each query
    the pages build becomes a filter or a maximum over that sequence, the
    insert appends, and the update rewrites the rows whose id matches.
    Whether a request fails is not decided here; the callers take it as
    an outcome parameter.
 */
module Deliveries {

  import opened Values

  /** Status values the pages write and compare against; the column itself
      is free text, so any other string may also be stored. */
  const PENDING: string := "pendente"
  const LOCATED: string := "localizado"

  /** One row of `entregas`. Column names: id, cliente_nome,
      cliente_telefone, cliente_rua, cliente_bairro, cliente_numero,
      cliente_referencia, codigo_acesso, status, latitude, longitude,
      precisao_gps, foto_url, confirmado_pelo_cliente, created_at,
      data_localizacao. The id is kept as its string form; timestamps
      are plain numbers. */
  datatype DeliveryRecord = DeliveryRecord(
    id: string,
    customerName: Option<string>,
    phone: Option<string>,
    street: Option<string>,
    neighborhood: Option<string>,
    houseNumber: Option<string>,
    reference: Option<string>,
    accessCode: string,
    status: string,
    latitude: Option<real>,
    longitude: Option<real>,
    accuracy: Option<real>,
    photoUrl: Option<string>,
    confirmedByCustomer: bool,
    createdAt: nat,
    locatedAt: Option<nat>)

  type Table = seq<DeliveryRecord>

  /** The fields the dashboard sends when it creates a delivery. */
  datatype NewDelivery = NewDelivery(
    customerName: string,
    phone: string,
    street: string,
    neighborhood: string,
    houseNumber: string,
    reference: string,
    accessCode: string,
    status: string)

  /** The fields the confirmation page sends when the customer is located. */
  datatype LocationUpdate = LocationUpdate(
    latitude: real,
    longitude: real,
    accuracy: real,
    status: string,
    confirmedByCustomer: bool,
    locatedAt: nat,
    photoUrl: Option<string>)

  // ---------------------------------------------------------------------
  // invariants of the table
  // ---------------------------------------------------------------------

  /** The id column is a primary key. */
  ghost predicate UniqueIds(t: Table) {
    forall i, j :: 0 <= i < j < |t| ==> t[i].id != t[j].id
  }

  /** A located row carries both coordinates. */
  predicate HasCoordinates(r: DeliveryRecord) {
    r.status == LOCATED ==> r.latitude.Some? && r.longitude.Some?
  }

  ghost predicate LocatedHaveCoordinates(t: Table) {
    forall i :: 0 <= i < |t| ==> HasCoordinates(t[i])
  }

  /** The converse: a row carries a position, accuracy, location time or
      photo only once it is located. */
  predicate LocatedIfPositioned(r: DeliveryRecord) {
    (r.latitude.Some? || r.longitude.Some? || r.accuracy.Some? || r.locatedAt.Some? || r.photoUrl.Some?)
      ==> r.status == LOCATED
  }

  ghost predicate OnlyLocatedHaveCoordinates(t: Table) {
    forall i :: 0 <= i < |t| ==> LocatedIfPositioned(t[i])
  }

  // ---------------------------------------------------------------------
  // insert
  // ---------------------------------------------------------------------

  /** `.insert([fields])`: the backend assigns the id and creation time; the
      columns the page does not send take their defaults (no coordinates,
      no photo, not confirmed, not located). */
  function Insert(t: Table, fields: NewDelivery, id: string, createdAt: nat): (t': Table)
    ensures |t'| == |t| + 1 && t'[..|t|] == t
    ensures t'[|t|].id == id && t'[|t|].createdAt == createdAt
    ensures t'[|t|].accessCode == fields.accessCode && t'[|t|].status == fields.status
    ensures t'[|t|].customerName == Some(fields.customerName) && t'[|t|].phone == Some(fields.phone)
    ensures t'[|t|].street == Some(fields.street) && t'[|t|].neighborhood == Some(fields.neighborhood)
    ensures t'[|t|].houseNumber == Some(fields.houseNumber) && t'[|t|].reference == Some(fields.reference)
    ensures t'[|t|].latitude.None? && t'[|t|].longitude.None? && t'[|t|].accuracy.None?
    ensures t'[|t|].photoUrl.None? && !t'[|t|].confirmedByCustomer && t'[|t|].locatedAt.None?
  {
    t + [DeliveryRecord(
      id, Some(fields.customerName), Some(fields.phone), Some(fields.street),
      Some(fields.neighborhood), Some(fields.houseNumber), Some(fields.reference),
      fields.accessCode, fields.status, None, None, None, None, false, createdAt, None)]
  }

  /** Inserting a row under a fresh id keeps the id column a primary key. */
  lemma InsertKeepsUniqueIds(t: Table, fields: NewDelivery, id: string, createdAt: nat)
    requires UniqueIds(t)
    requires forall i :: 0 <= i < |t| ==> t[i].id != id
    ensures UniqueIds(Insert(t, fields, id, createdAt))
  {
    var t' := Insert(t, fields, id, createdAt);
    forall i, j | 0 <= i < j < |t'| ensures t'[i].id != t'[j].id {
      assert t'[i] == t[i];
      if j < |t| {
        assert t'[j] == t[j];
      }
    }
  }

  /** The inserted row has no position and no photo, so only located rows
      keep having them, whatever status it is given. */
  lemma InsertKeepsOnlyLocated(t: Table, fields: NewDelivery, id: string, createdAt: nat)
    requires OnlyLocatedHaveCoordinates(t)
    ensures OnlyLocatedHaveCoordinates(Insert(t, fields, id, createdAt))
  {
    var t' := Insert(t, fields, id, createdAt);
    forall i | 0 <= i < |t'| ensures LocatedIfPositioned(t'[i]) {
      if i < |t| {
        assert t'[i] == t[i];
      }
    }
  }

  /** Inserting a row that is not located keeps every located row's coordinates. */
  lemma InsertKeepsCoordinates(t: Table, fields: NewDelivery, id: string, createdAt: nat)
    requires LocatedHaveCoordinates(t)
    requires fields.status != LOCATED
    ensures LocatedHaveCoordinates(Insert(t, fields, id, createdAt))
  {
    var t' := Insert(t, fields, id, createdAt);
    forall i | 0 <= i < |t'| ensures HasCoordinates(t'[i]) {
      if i < |t| {
        assert t'[i] == t[i];
      }
    }
  }

  // ---------------------------------------------------------------------
  // counting by status
  // ---------------------------------------------------------------------

  /** `t.filter(e => e.status === status).length`. */
  function CountStatus(t: Table, status: string): (n: nat)
    ensures n <= |t|
    decreases |t|
  {
    if |t| == 0 then 0
    else (if t[0].status == status then 1 else 0) + CountStatus(t[1..], status)
  }

  function Statuses(t: Table): (s: seq<string>)
    ensures |s| == |t| && forall i :: 0 <= i < |t| ==> s[i] == t[i].status
  {
    seq(|t|, i requires 0 <= i < |t| => t[i].status)
  }

  /** The count is the multiplicity of the status among all rows, so it
      does not depend on the order the rows are listed in. */
  lemma {:induction false} CountIsMultiplicity(t: Table, status: string)
    ensures CountStatus(t, status) == multiset(Statuses(t))[status]
    decreases |t|
  {
    if |t| > 0 {
      CountIsMultiplicity(t[1..], status);
      assert Statuses(t) == [t[0].status] + Statuses(t[1..]);
    }
  }

  /** Rows counted under two different statuses are different rows. */
  lemma {:induction false} CountsOfTwoStatuses(t: Table, a: string, b: string)
    requires a != b
    ensures CountStatus(t, a) + CountStatus(t, b) <= |t|
    decreases |t|
  {
    if |t| > 0 {
      CountsOfTwoStatuses(t[1..], a, b);
    }
  }

  /** When every row is pending or located the two counts cover the list. */
  lemma {:induction false} CountsCoverTwoStatusTable(t: Table)
    requires forall i :: 0 <= i < |t| ==> t[i].status == PENDING || t[i].status == LOCATED
    ensures CountStatus(t, PENDING) + CountStatus(t, LOCATED) == |t|
    decreases |t|
  {
    if |t| > 0 {
      assert forall i :: 0 <= i < |t| - 1 ==> t[1..][i] == t[i + 1];
      CountsCoverTwoStatusTable(t[1..]);
    }
  }

  // ---------------------------------------------------------------------
  // the two verification queries
  // ---------------------------------------------------------------------

  /** Result of a query ending in `.single()`: exactly one row, or an error. */
  datatype Single = One(row: DeliveryRecord) | NotExactlyOne

  function RowsWithId(t: Table, id: string): (rows: Table)
    ensures forall k :: 0 <= k < |rows| ==> rows[k].id == id && rows[k] in t
    ensures forall i :: 0 <= i < |t| && t[i].id == id ==> t[i] in rows
    ensures (forall i :: 0 <= i < |t| ==> t[i].id != id) ==> rows == []
    decreases |t|
  {
    if |t| == 0 then []
    else if t[0].id == id then [t[0]] + RowsWithId(t[1..], id)
    else RowsWithId(t[1..], id)
  }

  /** `.select(..).eq('id', id).single()`: the one row with that id; no row
      (or, were ids not unique, several) is reported as an error. */
  function SelectById(t: Table, id: string): (r: Single)
    ensures r.One? ==> r.row in t && r.row.id == id
    ensures r.One? <==> |RowsWithId(t, id)| == 1
  {
    var rows := RowsWithId(t, id);
    if |rows| == 1 then One(rows[0]) else NotExactlyOne
  }

  /** With unique ids, a row with the id exists exactly when `.single()` finds it. */
  lemma SelectByIdFinds(t: Table, id: string)
    requires UniqueIds(t)
    ensures SelectById(t, id).One? <==> exists i :: 0 <= i < |t| && t[i].id == id
    ensures forall i :: 0 <= i < |t| && t[i].id == id ==> SelectById(t, id) == One(t[i])
  {
    UniqueRowsWithId(t, id);
  }

  lemma {:induction false} UniqueRowsWithId(t: Table, id: string)
    requires UniqueIds(t)
    ensures |RowsWithId(t, id)| <= 1
    ensures forall i :: 0 <= i < |t| && t[i].id == id ==> RowsWithId(t, id) == [t[i]]
    decreases |t|
  {
    if |t| > 0 {
      var tail := t[1..];
      assert UniqueIds(tail) by {
        forall i, j | 0 <= i < j < |tail| ensures tail[i].id != tail[j].id {
          assert tail[i] == t[i + 1] && tail[j] == t[j + 1];
        }
      }
      UniqueRowsWithId(tail, id);
      if t[0].id == id {
        assert forall k :: 0 <= k < |tail| ==> tail[k].id != id by {
          forall k | 0 <= k < |tail| ensures tail[k].id != id {
            assert tail[k] == t[k + 1];
          }
        }
        assert RowsWithId(tail, id) == [];
      } else {
        forall i | 0 <= i < |t| && t[i].id == id ensures RowsWithId(t, id) == [t[i]] {
          assert i > 0 && t[i] == tail[i - 1];
        }
      }
    }
  }

  /** The row the universal code search may return. */
  predicate PendingWithCode(r: DeliveryRecord, code: string) {
    r.accessCode == code && r.status == PENDING
  }

  /** `.eq('codigo_acesso', code).eq('status', 'pendente')
      .order('created_at', { ascending: false }).limit(1).maybeSingle()`:
      the most recently created pending row with that code, or nothing.
      Among rows created at the same instant the backend's order is not
      known; this model returns the one listed first. */
  function NewestPendingWithCode(t: Table, code: string): (r: Option<DeliveryRecord>)
    ensures r.None? <==> forall i :: 0 <= i < |t| ==> !PendingWithCode(t[i], code)
    ensures r.Some? ==> r.value in t && PendingWithCode(r.value, code)
    ensures r.Some? ==> forall i :: 0 <= i < |t| && PendingWithCode(t[i], code) ==>
                          t[i].createdAt <= r.value.createdAt
    decreases |t|
  {
    if |t| == 0 then None
    else
      var rest := NewestPendingWithCode(t[1..], code);
      assert forall i :: 1 <= i < |t| ==> t[i] == t[1..][i - 1];
      if !PendingWithCode(t[0], code) then rest
      else if rest.Some? && rest.value.createdAt > t[0].createdAt then rest
      else Some(t[0])
  }

  // ---------------------------------------------------------------------
  // update
  // ---------------------------------------------------------------------

  function Apply(r: DeliveryRecord, u: LocationUpdate): DeliveryRecord {
    r.(latitude := Some(u.latitude), longitude := Some(u.longitude),
       accuracy := Some(u.accuracy), status := u.status,
       confirmedByCustomer := u.confirmedByCustomer,
       locatedAt := Some(u.locatedAt), photoUrl := u.photoUrl)
  }

  /** `.update(fields).eq('id', id)`: every row with the id takes the new
      values; no other row changes. A matching row count of zero is not
      an error. */
  function UpdateById(t: Table, id: string, u: LocationUpdate): (t': Table)
    ensures |t'| == |t|
    ensures forall i :: 0 <= i < |t| && t[i].id != id ==> t'[i] == t[i]
    ensures forall i :: 0 <= i < |t| && t[i].id == id ==>
              t'[i].id == id && t'[i].status == u.status &&
              t'[i].latitude == Some(u.latitude) && t'[i].longitude == Some(u.longitude) &&
              t'[i].accuracy == Some(u.accuracy) && t'[i].confirmedByCustomer == u.confirmedByCustomer &&
              t'[i].locatedAt == Some(u.locatedAt) && t'[i].photoUrl == u.photoUrl
    ensures forall i :: 0 <= i < |t| && t[i].id == id ==>
              t'[i].(latitude := t[i].latitude, longitude := t[i].longitude, accuracy := t[i].accuracy,
                     status := t[i].status, confirmedByCustomer := t[i].confirmedByCustomer,
                     locatedAt := t[i].locatedAt, photoUrl := t[i].photoUrl) == t[i]
  {
    seq(|t|, i requires 0 <= i < |t| => if t[i].id == id then Apply(t[i], u) else t[i])
  }

  /** An update that sets coordinates keeps every located row's coordinates,
      whatever status it writes. */
  lemma UpdateKeepsCoordinates(t: Table, id: string, u: LocationUpdate)
    requires LocatedHaveCoordinates(t)
    ensures LocatedHaveCoordinates(UpdateById(t, id, u))
  {
  }

  /** An update that writes the located status along with the position
      keeps "positioned only when located". */
  lemma UpdateKeepsOnlyLocated(t: Table, id: string, u: LocationUpdate)
    requires OnlyLocatedHaveCoordinates(t)
    requires u.status == LOCATED
    ensures OnlyLocatedHaveCoordinates(UpdateById(t, id, u))
  {
  }

  /** An update whose id matches no row leaves the table as it was. */
  lemma UpdateMissingIdIsNoOp(t: Table, id: string, u: LocationUpdate)
    requires forall i :: 0 <= i < |t| ==> t[i].id != id
    ensures UpdateById(t, id, u) == t
  {
  }

  /** The update keeps ids, so the primary key stays a primary key. */
  lemma UpdateKeepsUniqueIds(t: Table, id: string, u: LocationUpdate)
    requires UniqueIds(t)
    ensures UniqueIds(UpdateById(t, id, u))
  {
  }
}

=== FILE: links.dfy ===
/** The confirmation links the dashboard shares and the way the
    confirmation page reads them back (`location.search` and
    `URLSearchParams.get('id')`).
 */
module Links {

  import opened Values
  import Text

  const CONFIRM_PATH: string := "/confirmar-localizacao"

  /** How a template literal renders a nullable id: `null` prints as "null". */
  function IdText(id: Option<string>): string {
    match id
    case None => "null"
    case Some(s) => s
  }

  /** The universal link: the confirmation page with no query. */
  function UniversalUrl(origin: string): (url: string)
    ensures |url| > |origin| && url[..|origin|] == origin
    ensures url[|origin|..] == CONFIRM_PATH
  {
    origin + CONFIRM_PATH
  }

  /** `${origin}/confirmar-localizacao?id=${id}`: the universal link with
      the id as its only query parameter. */
  function DeliveryUrl(origin: string, id: Option<string>): (url: string)
    ensures |url| > |UniversalUrl(origin)| && url[..|UniversalUrl(origin)|] == UniversalUrl(origin)
    ensures url[|UniversalUrl(origin)|..] == "?id=" + IdText(id)
  {
    UniversalUrl(origin) + "?id=" + IdText(id)
  }

  /** `location.search`: the text from the first '?' up to the fragment, or
      "" when there is no query. */
  function Search(url: string): (search: string)
    ensures search == "" || (search[0] == '?' && |search| > 1)
    ensures '#' !in search
  {
    var beforeFragment := Text.BeforeFirst(url, '#');
    match Text.AfterFirst(beforeFragment, '?')
    case None => ""
    case Some(q) =>
      assert '#' !in q by {
        assert beforeFragment == Text.BeforeFirst(beforeFragment, '?') + ['?'] + q;
        assert forall k :: 0 <= k < |q| ==> q[k] == beforeFragment[|beforeFragment| - |q| + k];
      }
      if q == "" then "" else "?" + q
  }

  /** The value of the first `name=value` pair with the given name; a pair
      without '=' has the empty value. */
  function FirstParam(pairs: seq<string>, name: string): (r: Option<string>)
    ensures r.None? <==> forall k :: 0 <= k < |pairs| ==> !Names(pairs[k], name)
    ensures r.Some? ==> exists k :: 0 <= k < |pairs| && Names(pairs[k], name) && r.value == ValueOf(pairs[k]) &&
                                   forall j :: 0 <= j < k ==> !Names(pairs[j], name)
    decreases |pairs|
  {
    if |pairs| == 0 then None
    else if Names(pairs[0], name) then Some(ValueOf(pairs[0]))
    else
      var r := FirstParam(pairs[1..], name);
      assert forall k :: 1 <= k < |pairs| ==> pairs[k] == pairs[1..][k - 1];
      r
  }

  /** A non-empty pair whose name (text before the first '=') is `name`. */
  predicate Names(pair: string, name: string) {
    |pair| > 0 && Text.BeforeFirst(pair, '=') == name
  }

  /** The text after the pair's first '=', or "" when it has none; it is a
      suffix of the pair. */
  function ValueOf(pair: string): (v: string)
    ensures '=' in pair ==> pair == Text.BeforeFirst(pair, '=') + ['='] + v
    ensures '=' !in pair ==> v == ""
    ensures |v| <= |pair| && v == pair[|pair| - |v|..]
  {
    match Text.AfterFirst(pair, '=')
    case None => ""
    case Some(v) =>
      assert pair == Text.BeforeFirst(pair, '=') + ['='] + v;
      v
  }

  /** The `name=value` pieces of a search: the text after a leading '?',
      cut at every '&'; joined back with '&' they give that text again. */
  function Pairs(search: string): (pairs: seq<string>)
    ensures |pairs| >= 1 && forall k :: 0 <= k < |pairs| ==> '&' !in pairs[k]
    ensures Text.Join(pairs, '&') == if |search| > 0 && search[0] == '?' then search[1..] else search
    ensures search == "" ==> pairs == [""]
  {
    var query := if |search| > 0 && search[0] == '?' then search[1..] else search;
    Text.JoinSplit(query, '&');
    Text.Split(query, '&')
  }

  /** `new URLSearchParams(search).get(name)`, without percent-decoding:
      the value of the first piece named `name`, nothing when no piece is;
      the value ends at the next '&', and an empty search gives nothing. */
  function QueryParam(search: string, name: string): (r: Option<string>)
    ensures r.None? <==> forall k :: 0 <= k < |Pairs(search)| ==> !Names(Pairs(search)[k], name)
    ensures r.Some? ==> exists k :: 0 <= k < |Pairs(search)| && Names(Pairs(search)[k], name) &&
                                   r.value == ValueOf(Pairs(search)[k]) &&
                                   forall j :: 0 <= j < k ==> !Names(Pairs(search)[j], name)
    ensures r.Some? ==> '&' !in r.value
    ensures search == "" ==> r.None?
  {
    var pairs := Pairs(search);
    ValuesStopAtAmpersand(pairs, name);
    FirstParam(pairs, name)
  }

  /** A value taken from a piece of `split('&')` holds no '&'. */
  lemma ValuesStopAtAmpersand(pairs: seq<string>, name: string)
    requires forall k :: 0 <= k < |pairs| ==> '&' !in pairs[k]
    ensures FirstParam(pairs, name).Some? ==> '&' !in FirstParam(pairs, name).value
  {
    var r := FirstParam(pairs, name);
    if r.Some? {
      var k :| 0 <= k < |pairs| && Names(pairs[k], name) && r.value == ValueOf(pairs[k]) &&
               forall j :: 0 <= j < k ==> !Names(pairs[j], name);
      SuffixLacks(pairs[k], ValueOf(pairs[k]), '&');
    }
  }

  lemma SuffixLacks(s: string, suffix: string, c: char)
    requires c !in s && |suffix| <= |s| && suffix == s[|s| - |suffix|..]
    ensures c !in suffix
  {
    assert forall i :: 0 <= i < |suffix| ==> suffix[i] == s[|s| - |suffix| + i];
  }

  /** The delivery id the confirmation page reads from its own address:
      never holding '&', and absent from an address with no query. */
  function IdParam(url: string): (r: Option<string>)
    ensures r.None? <==> forall k :: 0 <= k < |Pairs(Search(url))| ==> !Names(Pairs(Search(url))[k], "id")
    ensures r.Some? ==> exists k :: 0 <= k < |Pairs(Search(url))| && Names(Pairs(Search(url))[k], "id") &&
                                   r.value == ValueOf(Pairs(Search(url))[k]) &&
                                   forall j :: 0 <= j < k ==> !Names(Pairs(Search(url))[j], "id")
    ensures r.Some? ==> '&' !in r.value
    ensures '?' !in url ==> r.None?
  {
    NoQueryNoSearch(url);
    QueryParam(Search(url), "id")
  }

  lemma NoQueryNoSearch(url: string)
    ensures '?' !in url ==> Search(url) == ""
  {
    if '?' !in url {
      var beforeFragment := Text.BeforeFirst(url, '#');
      assert forall i :: 0 <= i < |beforeFragment| ==> beforeFragment[i] == url[i];
    }
  }

  /** A shared per-delivery link brings the customer to that delivery: the
      confirmation page reads back exactly the id that was shared, as long
      as neither the origin nor the id holds characters that end the path
      or the query parameter. */
  lemma SharedIdRoundTrip(origin: string, id: string)
    requires '?' !in origin && '#' !in origin
    requires '&' !in id && '#' !in id
    ensures IdParam(DeliveryUrl(origin, Some(id))) == Some(id)
  {
    var path := UniversalUrl(origin);
    var q := "id=" + id;
    assert DeliveryUrl(origin, Some(id)) == path + ['?'] + q;
    PathHasNoQuery(origin);
    SearchOfQuery(path, q);
    QueryOfOneId(id);
  }

  lemma PathHasNoQuery(origin: string)
    requires '?' !in origin && '#' !in origin
    ensures '?' !in UniversalUrl(origin) && '#' !in UniversalUrl(origin)
  {
    assert '#' !in CONFIRM_PATH && '?' !in CONFIRM_PATH;
  }

  /** The search part of `path?q` is `?q` when neither side holds a fragment. */
  lemma SearchOfQuery(path: string, q: string)
    requires '?' !in path && '#' !in path && '#' !in q && q != ""
    ensures Search(path + ['?'] + q) == "?" + q
  {
    var url := path + ['?'] + q;
    assert '#' !in url;
    Text.BeforeFirstAbsent(url, '#');
    Text.FirstSplitOf(path, '?', q);
  }

  lemma QueryOfOneId(id: string)
    requires '&' !in id
    ensures QueryParam("?id=" + id, "id") == Some(id)
  {
    var q := "id=" + id;
    var search := "?id=" + id;
    assert |search| > 0 && search[0] == '?' && search[1..] == q;
    assert '&' !in q;
    Text.SplitWithoutSeparator(q, '&');
    OnePairNamedId(id);
  }

  lemma OnePairNamedId(id: string)
    ensures FirstParam(["id=" + id], "id") == Some(id)
  {
    var q := "id=" + id;
    assert q == "id" + ['='] + id;
    Text.FirstSplitOf("id", '=', id);
    assert Names(q, "id") && ValueOf(q) == id;
  }

  /** The universal link carries no id, so the page falls back to the code search. */
  lemma UniversalUrlHasNoId(origin: string)
    requires '?' !in origin
    ensures IdParam(UniversalUrl(origin)) == None
  {
    assert '?' !in CONFIRM_PATH;
  }
}

=== FILE: scenario.dfy ===
/** The whole round, seller to customer: create a delivery, share its link,
    enter its code on the confirmation page and send the position.
 */
module Scenario {

  import opened Values
  import opened Text
  import opened Deliveries
  import Links
  import Dashboard
  import Confirmation

  /** The page after typing the four characters of `code`, one per box. */
  function TypeCode(c: Confirmation.Client, code: string): (c': Confirmation.Client)
    requires Confirmation.Valid(c) && c.focus == 0
    requires |c.codeInputs| == 4 && |code| == 4
    ensures c'.codeInputs == [[code[0]], [code[1]], [code[2]], [code[3]]]
    ensures c'.step == c.step && c'.deliveryId == c.deliveryId && c'.photo == c.photo
    ensures c'.verifyEnabled == c.verifyEnabled && c'.sendEnabled == c.sendEnabled
    ensures c'.focus == 3
  {
    Confirmation.TypingWalksForward(c, code);
    Confirmation.TypeChars(c, code)
  }

  lemma ConcatOfFour(code: string)
    requires |code| == 4
    ensures Concat([[code[0]], [code[1]], [code[2]], [code[3]]]) == code
  {
    var boxes := [[code[0]], [code[1]], [code[2]], [code[3]]];
    assert boxes[1..][1..][1..][1..] == [];
    assert Concat(boxes[3..]) == [code[3]];
    assert Concat(boxes[2..]) == [code[2], code[3]];
    assert Concat(boxes[1..]) == [code[1], code[2], code[3]];
    assert code == [code[0], code[1], code[2], code[3]];
  }

  /** Create "Ana" with phone "11999999999", open the link shared for the new
      row, type its code, pick the photo "casa.jpg" and click send; the GPS
      answers (-23.5, -46.6) with accuracy 10 and both transfers succeed.
      The row ends located and confirmed by the customer, at that position,
      holding the photo's public address. Before the photo is picked the
      send button is still disabled, so a click then issues nothing. */
  lemma CreateVerifyLocate(t: Table, origin: string, u: real, id: string, createdAt: nat,
                           millis: nat, now: nat, publicUrl: string -> string)
    requires 0.0 <= u < 1.0
    requires UniqueIds(t) && forall i :: 0 <= i < |t| ==> t[i].id != id
    requires '?' !in origin && '#' !in origin && '&' !in id && '#' !in id && |id| > 0
    ensures
      var form := Dashboard.Form(Some("Ana"), Some("11999999999"), None, None, None, None);
      var created := Dashboard.HandleCreate(Dashboard.Seller(t, form, true, true), u,
                                            Dashboard.Inserted(id, createdAt));
      var t1 := created.seller.table;
      |t1| == |t| + 1 &&
      (var row := t1[|t|];
       row.id == id && row.status == PENDING && |row.accessCode| == 4 && AllDigits(row.accessCode) &&
       (var page := Confirmation.Start(Links.DeliveryUrl(origin, Some(id)), 4);
        var verified := Confirmation.HandleVerifyCode(TypeCode(page, row.accessCode), t1, false);
        verified.client.step == Confirmation.Location &&
        (var gps := Confirmation.Position(-23.5, -46.6, 10.0);
         var early := Confirmation.OnSendClick(verified.client, t1, true, gps,
                                               Confirmation.Done, Confirmation.Done,
                                               millis, now, publicUrl);
         var ready := Confirmation.OnPhotoChosen(verified.client, [Confirmation.Photo("casa.jpg")]);
         var sent := Confirmation.OnSendClick(ready, t1, true, gps,
                                              Confirmation.Done, Confirmation.Done,
                                              millis, now, publicUrl);
         var t2 := sent.table;
         early.requests == [] && early.table == t1 &&
         sent.client.step == Confirmation.Success && |t2| == |t1| &&
         t2[|t|].status == LOCATED && t2[|t|].confirmedByCustomer &&
         t2[|t|].photoUrl == Some(publicUrl(Confirmation.PhotoPath(id, millis, "casa.jpg"))) &&
         t2[|t|].latitude == Some(-23.5) && t2[|t|].longitude == Some(-46.6))))
  {
    var form := Dashboard.Form(Some("Ana"), Some("11999999999"), None, None, None, None);
    var created := Dashboard.HandleCreate(Dashboard.Seller(t, form, true, true), u,
                                          Dashboard.Inserted(id, createdAt));
    var t1 := created.seller.table;
    CreateAna(t, u, id, createdAt);
    var row := t1[|t|];
    VerifyOwnCode(origin, id, t1, row.accessCode);
    var page := Confirmation.Start(Links.DeliveryUrl(origin, Some(id)), 4);
    var verified := Confirmation.HandleVerifyCode(TypeCode(page, row.accessCode), t1, false);
    PhotoThenSend(verified.client, t1, |t|, millis, now, publicUrl);
  }

  /** On the location step, before a photo is picked, a click on send issues
      nothing; once "casa.jpg" is picked, a click with the GPS at
      (-23.5, -46.6) and both transfers succeeding locates the session's row
      with the photo's public address. */
  lemma PhotoThenSend(c: Confirmation.Client, t: Table, k: nat, millis: nat, now: nat,
                      publicUrl: string -> string)
    requires Confirmation.Valid(c) && c.step == Confirmation.Location && !c.sendEnabled
    requires k < |t| && c.deliveryId == Some(t[k].id) && |t[k].id| > 0
    ensures var gps := Confirmation.Position(-23.5, -46.6, 10.0);
            var early := Confirmation.OnSendClick(c, t, true, gps, Confirmation.Done, Confirmation.Done,
                                                  millis, now, publicUrl);
            var ready := Confirmation.OnPhotoChosen(c, [Confirmation.Photo("casa.jpg")]);
            var sent := Confirmation.OnSendClick(ready, t, true, gps, Confirmation.Done, Confirmation.Done,
                                                 millis, now, publicUrl);
            early.requests == [] && early.table == t &&
            sent.client.step == Confirmation.Success && |sent.table| == |t| &&
            sent.table[k].status == LOCATED && sent.table[k].confirmedByCustomer &&
            sent.table[k].photoUrl == Some(publicUrl(Confirmation.PhotoPath(t[k].id, millis, "casa.jpg"))) &&
            sent.table[k].latitude == Some(-23.5) && sent.table[k].longitude == Some(-46.6)
  {
    var gps := Confirmation.Position(-23.5, -46.6, 10.0);
    var ready := Confirmation.OnPhotoChosen(c, [Confirmation.Photo("casa.jpg")]);
    assert ready.sendEnabled && ready.deliveryId == c.deliveryId && ready.photo == Some(Confirmation.Photo("casa.jpg"));
    Confirmation.SendLocatesTheRow(ready, t, gps, Confirmation.Done, Confirmation.Done,
                                   millis, now, publicUrl, k);
  }

  /** Creating "Ana" under a fresh id appends one pending row with that id
      and a four-digit code, and keeps ids unique. */
  lemma CreateAna(t: Table, u: real, id: string, createdAt: nat)
    requires 0.0 <= u < 1.0
    requires UniqueIds(t) && forall i :: 0 <= i < |t| ==> t[i].id != id
    ensures var form := Dashboard.Form(Some("Ana"), Some("11999999999"), None, None, None, None);
            var t1 := Dashboard.HandleCreate(Dashboard.Seller(t, form, true, true), u,
                                             Dashboard.Inserted(id, createdAt)).seller.table;
            |t1| == |t| + 1 && UniqueIds(t1) && t1[|t|].id == id && t1[|t|].status == PENDING &&
            |t1[|t|].accessCode| == 4 && AllDigits(t1[|t|].accessCode)
  {
    var form := Dashboard.Form(Some("Ana"), Some("11999999999"), None, None, None, None);
    var created := Dashboard.HandleCreate(Dashboard.Seller(t, form, true, true), u,
                                          Dashboard.Inserted(id, createdAt));
    InsertKeepsUniqueIds(t, created.sent.value, id, createdAt);
  }

  /** On the page opened from the row's own link, typing the row's code
      passes verification for that row; the send button stays disabled. */
  lemma VerifyOwnCode(origin: string, id: string, t: Table, code: string)
    requires UniqueIds(t) && |t| > 0 && t[|t| - 1].id == id && t[|t| - 1].accessCode == code
    requires |code| == 4
    requires '?' !in origin && '#' !in origin && '&' !in id && '#' !in id && |id| > 0
    ensures var page := Confirmation.Start(Links.DeliveryUrl(origin, Some(id)), 4);
            var verified := Confirmation.HandleVerifyCode(TypeCode(page, code), t, false);
            verified.client.step == Confirmation.Location && verified.client.deliveryId == Some(id) &&
            !verified.client.sendEnabled && Confirmation.Valid(verified.client)
  {
    Links.SharedIdRoundTrip(origin, id);
    var page := Confirmation.Start(Links.DeliveryUrl(origin, Some(id)), 4);
    var typed := TypeCode(page, code);
    ConcatOfFour(code);
    assert Confirmation.EnteredCode(typed) == code;
    Confirmation.TargetedVerification(typed, t);
  }
}

=== FILE: text.dfy ===
/** The JavaScript string built-ins the application uses, over `seq<char>`:
    `split`, `join`, `slice`, `padStart`, `toUpperCase` (ASCII letters only)
    and `Number.prototype.toString` for non-negative integers, together with
    the reference definitions they are proved against.
 */
module Text {

  import Values

  function Min(a: int, b: int): int {
    if a <= b then a else b
  }

  // ---------------------------------------------------------------------
  // split / join
  // ---------------------------------------------------------------------

  /** `s.split(sep)` for a one-character separator: the pieces between the
      occurrences of `sep`, empty pieces included, so there is always one
      more piece than there are separators. */
  function Split(s: string, sep: char): (parts: seq<string>)
    ensures |parts| >= 1
    ensures forall i :: 0 <= i < |parts| ==> sep !in parts[i]
    decreases |s|
  {
    if |s| == 0 then [""]
    else
      var rest := Split(s[1..], sep);
      if s[0] == sep then [""] + rest
      else [[s[0]] + rest[0]] + rest[1..]
  }

  /** `parts.join(sep)` for a one-character separator. */
  function Join(parts: seq<string>, sep: char): string
    decreases |parts|
  {
    if |parts| == 0 then ""
    else if |parts| == 1 then parts[0]
    else parts[0] + [sep] + Join(parts[1..], sep)
  }

  /** `parts.join('')`. */
  function Concat(parts: seq<string>): string
    decreases |parts|
  {
    if |parts| == 0 then "" else parts[0] + Concat(parts[1..])
  }

  /** Joining one-character pieces lines their characters up in order. */
  lemma {:induction false} ConcatOfSingles(parts: seq<string>)
    ensures (forall k :: 0 <= k < |parts| ==> |parts[k]| == 1) ==>
              |Concat(parts)| == |parts| &&
              forall k :: 0 <= k < |parts| ==> Concat(parts)[k] == parts[k][0]
    decreases |parts|
  {
    if |parts| > 0 && forall k :: 0 <= k < |parts| ==> |parts[k]| == 1 {
      ConcatOfSingles(parts[1..]);
      assert forall k :: 1 <= k < |parts| ==> Concat(parts)[k] == Concat(parts[1..])[k - 1];
    }
  }

  /** Joining empty pieces gives the empty string. */
  lemma {:induction false} ConcatOfEmpties(parts: seq<string>)
    ensures (forall k :: 0 <= k < |parts| ==> parts[k] == "") ==> Concat(parts) == ""
    decreases |parts|
  {
    if |parts| > 0 {
      ConcatOfEmpties(parts[1..]);
    }
  }

  /** Splitting loses nothing: joining the pieces back gives the input. */
  lemma {:induction false} JoinSplit(s: string, sep: char)
    ensures Join(Split(s, sep), sep) == s
    decreases |s|
  {
    if |s| > 0 {
      var rest := Split(s[1..], sep);
      JoinSplit(s[1..], sep);
      if s[0] == sep {
        assert ([""] + rest)[1..] == rest;
      } else {
        var parts := [[s[0]] + rest[0]] + rest[1..];
        if |rest| > 1 {
          assert parts[1..] == rest[1..];
        }
      }
    }
  }

  /** A string without the separator splits into itself alone. */
  lemma {:induction false} SplitWithoutSeparator(s: string, sep: char)
    requires sep !in s
    ensures Split(s, sep) == [s]
    decreases |s|
  {
    if |s| > 0 {
      assert sep !in s[1..];
      SplitWithoutSeparator(s[1..], sep);
      assert [s[0]] + s[1..] == s;
    }
  }

  /** Joining with one more piece at the end adds the separator and the piece. */
  lemma {:induction false} JoinSnoc(parts: seq<string>, last: string, sep: char)
    requires |parts| >= 1
    ensures Join(parts + [last], sep) == Join(parts, sep) + [sep] + last
    decreases |parts|
  {
    if |parts| > 1 {
      assert (parts + [last])[1..] == parts[1..] + [last];
      JoinSnoc(parts[1..], last, sep);
    }
  }

  /** The separator occurs in the string exactly when it splits into several pieces. */
  lemma SplitCountsSeparator(s: string, sep: char)
    ensures sep in s <==> |Split(s, sep)| > 1
  {
    var parts := Split(s, sep);
    JoinSplit(s, sep);
    if |parts| == 1 {
      assert Join(parts, sep) == parts[0];
    } else {
      var n := |parts|;
      assert parts == parts[..n - 1] + [parts[n - 1]];
      JoinSnoc(parts[..n - 1], parts[n - 1], sep);
      var prefix := Join(parts[..n - 1], sep);
      assert s == prefix + [sep] + parts[n - 1];
      assert s[|prefix|] == sep;
    }
  }

  // ---------------------------------------------------------------------
  // first / last occurrence
  // ---------------------------------------------------------------------

  /** The text before the first `c`, or all of `s` when there is none. */
  function BeforeFirst(s: string, c: char): (r: string)
    ensures c !in r
    ensures |r| <= |s| && s[..|r|] == r
    ensures |r| < |s| ==> s[|r|] == c
    decreases |s|
  {
    if |s| == 0 || s[0] == c then "" else [s[0]] + BeforeFirst(s[1..], c)
  }

  /** The text after the first `c`, if `s` contains one. */
  function AfterFirst(s: string, c: char): (r: Values.Option<string>)
    ensures r.None? <==> c !in s
    ensures r.Some? ==> s == BeforeFirst(s, c) + [c] + r.value
    decreases |s|
  {
    if |s| == 0 then Values.None
    else if s[0] == c then Values.Some(s[1..])
    else AfterFirst(s[1..], c)
  }

  /** `BeforeFirst`/`AfterFirst` recover the two sides of the first `c`. */
  lemma {:induction false} FirstSplitOf(a: string, c: char, b: string)
    requires c !in a
    ensures BeforeFirst(a + [c] + b, c) == a
    ensures AfterFirst(a + [c] + b, c) == Values.Some(b)
    decreases |a|
  {
    if |a| > 0 {
      assert (a + [c] + b)[1..] == a[1..] + [c] + b;
      assert c !in a[1..];
      FirstSplitOf(a[1..], c, b);
    }
  }

  lemma {:induction false} BeforeFirstAbsent(s: string, c: char)
    requires c !in s
    ensures BeforeFirst(s, c) == s
    decreases |s|
  {
    if |s| > 0 {
      assert c !in s[1..];
      BeforeFirstAbsent(s[1..], c);
    }
  }

  /** The two sides of the LAST `c` in `s`, if `s` contains one. */
  function SplitAtLast(s: string, c: char): (r: Values.Option<(string, string)>)
    ensures r.None? <==> c !in s
    ensures r.Some? ==> s == r.value.0 + [c] + r.value.1 && c !in r.value.1
    decreases |s|
  {
    if |s| == 0 then Values.None
    else if s[|s| - 1] == c then Values.Some((s[..|s| - 1], ""))
    else
      match SplitAtLast(s[..|s| - 1], c)
      case None =>
        assert s == s[..|s| - 1] + [s[|s| - 1]];
        Values.None
      case Some(pair) =>
        assert s == s[..|s| - 1] + [s[|s| - 1]];
        Values.Some((pair.0, pair.1 + [s[|s| - 1]]))
  }

  /** A decomposition around `c` whose right side is free of `c` is the one
      `SplitAtLast` finds. */
  lemma {:induction false} SplitAtLastUnique(a: string, c: char, b: string)
    requires c !in b
    ensures SplitAtLast(a + [c] + b, c) == Values.Some((a, b))
    decreases |b|
  {
    var s := a + [c] + b;
    if |b| > 0 {
      var b0 := b[..|b| - 1];
      assert s[..|s| - 1] == a + [c] + b0;
      assert c !in b0;
      SplitAtLastUnique(a, c, b0);
      assert b0 + [b[|b| - 1]] == b;
    } else {
      assert s[..|s| - 1] == a;
    }
  }

  // ---------------------------------------------------------------------
  // slice / padStart / toUpperCase
  // ---------------------------------------------------------------------

  /** `s.slice(0, n)`. */
  function Take(s: string, n: nat): (r: string)
    ensures |r| == Min(n, |s|) && r == s[..|r|]
  {
    s[..Min(n, |s|)]
  }

  /** `s.slice(-n)`, for n > 0: the last n characters, or all of a shorter `s`. */
  function TakeLast(s: string, n: nat): (r: string)
    requires n > 0
    ensures |r| == Min(n, |s|) && r == s[|s| - |r|..]
  {
    s[|s| - Min(n, |s|)..]
  }

  function Repeat(c: char, n: nat): (r: string)
    ensures |r| == n && forall i :: 0 <= i < n ==> r[i] == c
  {
    seq(n, _ => c)
  }

  /** `s.padStart(width, c)`: fill on the left up to `width`, never truncate. */
  function PadStart(s: string, width: nat, c: char): (r: string)
    ensures |r| == if |s| >= width then |s| else width
    ensures r[|r| - |s|..] == s
    ensures forall i :: 0 <= i < |r| - |s| ==> r[i] == c
  {
    if |s| >= width then s else Repeat(c, width - |s|) + s
  }

  /** `toUpperCase` on one character; letters outside ASCII are not modelled. */
  function UpperChar(c: char): char {
    if 'a' <= c <= 'z' then (c as int - 32) as char else c
  }

  function ToUpper(s: string): (r: string)
    ensures |r| == |s|
    ensures forall i :: 0 <= i < |s| ==> r[i] == UpperChar(s[i])
  {
    seq(|s|, i requires 0 <= i < |s| => UpperChar(s[i]))
  }

  // ---------------------------------------------------------------------
  // decimal numerals
  // ---------------------------------------------------------------------

  predicate IsDigit(c: char) {
    '0' <= c <= '9'
  }

  predicate AllDigits(s: string) {
    forall i :: 0 <= i < |s| ==> IsDigit(s[i])
  }

  function DigitChar(d: nat): (c: char)
    requires d < 10
    ensures IsDigit(c)
  {
    ('0' as int + d) as char
  }

  function DigitValue(c: char): nat
    requires IsDigit(c)
  {
    c as int - '0' as int
  }

  /** The number a string of digits denotes (leading zeros allowed). */
  function DecimalValue(s: string): nat
    requires AllDigits(s)
    decreases |s|
  {
    if |s| == 0 then 0
    else DecimalValue(s[..|s| - 1]) * 10 + DigitValue(s[|s| - 1])
  }

  function Pow10(k: nat): (p: nat)
    ensures p >= 1
  {
    if k == 0 then 1 else 10 * Pow10(k - 1)
  }

  /** `n.toString()` for a non-negative integer: digits, no leading zero. */
  function NatToDecimal(n: nat): (s: string)
    ensures |s| >= 1 && AllDigits(s)
    ensures s[0] == '0' ==> n == 0
    decreases n
  {
    if n < 10 then [DigitChar(n)]
    else NatToDecimal(n / 10) + [DigitChar(n % 10)]
  }

  /** Reading the numeral back gives the number. */
  lemma {:induction false} DecimalRoundTrip(n: nat)
    ensures DecimalValue(NatToDecimal(n)) == n
    decreases n
  {
    var s := NatToDecimal(n);
    if n >= 10 {
      DecimalRoundTrip(n / 10);
      assert s[..|s| - 1] == NatToDecimal(n / 10);
    } else {
      assert s[..0] == "";
    }
  }

  /** The numeral of n has at most k digits exactly when n < 10^k. */
  lemma {:induction false} DecimalLength(n: nat, k: nat)
    requires k >= 1
    ensures |NatToDecimal(n)| <= k <==> n < Pow10(k)
    decreases n
  {
    if n >= 10 {
      if k == 1 {
      } else {
        DecimalLength(n / 10, k - 1);
      }
    } else {
      PowAtLeastTen(k);
    }
  }

  lemma {:induction false} PowAtLeastTen(k: nat)
    requires k >= 1
    ensures Pow10(k) >= 10
    decreases k
  {
    if k > 1 {
      PowAtLeastTen(k - 1);
    }
  }

  /** Leading zeros do not change the value of a numeral. */
  lemma {:induction false} LeadingZeros(z: nat, s: string)
    requires AllDigits(s)
    ensures AllDigits(Repeat('0', z) + s)
    ensures DecimalValue(Repeat('0', z) + s) == DecimalValue(s)
    decreases z, |s|
  {
    var t := Repeat('0', z) + s;
    assert AllDigits(t) by {
      forall i | 0 <= i < |t| ensures IsDigit(t[i]) {
        if i >= z {
          assert t[i] == s[i - z];
        }
      }
    }
    if |s| == 0 {
      if z > 0 {
        assert t == Repeat('0', z - 1) + "0";
        assert t[..|t| - 1] == Repeat('0', z - 1) + "";
        LeadingZeros(z - 1, "");
      }
    } else {
      assert t[..|t| - 1] == Repeat('0', z) + s[..|s| - 1];
      LeadingZeros(z, s[..|s| - 1]);
    }
  }
}

=== FILE: values.dfy ===
/** JavaScript values the application tests for truthiness.

    A nullable string is `Option<string>`; a nullable number is
    `Option<real>`. JavaScript treats `null`, `undefined`, `""` and `0`
    as false in a condition, and `a || b` yields `b` whenever `a` is false.
 */
module Values {

  datatype Option<+T> = None | Some(value: T)

  /** Truthiness of a nullable string: `null` and `""` are false. */
  predicate Present(s: Option<string>) {
    s.Some? && |s.value| > 0
  }

  /** Truthiness of a nullable number: `null` and `0` are false. */
  predicate NumberTruthy(x: Option<real>) {
    x.Some? && x.value != 0.0
  }

  /** `s || fallback` for a nullable string. */
  function OrElse(s: Option<string>, fallback: string): (r: string)
    ensures Present(s) ==> r == s.value
    ensures !Present(s) ==> r == fallback
  {
    if Present(s) then s.value else fallback
  }
}
